=== FILE: README.md ===
# ArmaLLM data tools: crawl, raw-file framing and record transformer

This project models the logic under the two batch scripts of the ArmaLLM
data tools:

- **The crawler** (`ArmaScraper` in `data-tools/data-scraper.py`). It walks
  a wiki from a list of start URLs. A page whose URL contains `"Category:"`
  is a listing page: its category-group links are resolved, admitted by
  `is_valid_url` and scraped one level deeper, in document order. Any other
  page is a content page, which yields one `{title, url, content}` record
  when it has a content div. Every URL is marked visited before it is
  loaded and is never loaded twice. No page is loaded beyond `max_depth`.
  The records are streamed into `raw_wiki_data.json`, which is framed as a
  JSON array by `__init__`, `append_data` and `finalize_json`.
- **The transformer** (`DataSorter.process_wiki_data` in
  `data-tools/data-sorter.py`). It turns every raw entry that has a title
  and non-blank content into one `{instruction, input, output}` record, in
  input order, and writes them one per line to `arma_commands.jsonl`. A
  missing input file is fatal before any entry is looked at.

The browser, the HTML parser and the URL library are replaced by a `Site`
oracle (`Scraper.Site`):

- `fetch(url)` says whether a load succeeds and, if so, what the parsed
  page offers: its category groups of anchors, its optional `<title>` text
  and its optional content-div text;
- `join(base, href)` is `urljoin`, None when it raises;
- `netloc(url)` is the network location `urlparse` finds.

JSON serialisation is an opaque `serialize` function in both scripts.

Modules, one per file:

- `Wrappers`: `Option` and `Result`.
- `Variants`: `AsWritten` versus `Corrected` behaviour, for the three
  defects listed under Findings.
- `Seqs`: order-preserving subsequences, duplicate freedom and filtering.
- `Text`: Python's `str.strip()` with Python's whitespace set, and the
  substring test `needle in hay`.
- `JsonArray`: the raw-file framing as written, and a corrected writer.
- `Scraper`: the crawl, `is_valid_url` and the start-URL loop.
- `Sorter`: the transformer.

The crawl is a pair of mutually recursive functions, `ScrapePage` and
`ScrapeLinks`. They thread a `CrawlState` through the recursion: the
visited set, the log of page loads and the records appended so far. They
terminate because `max_depth - depth` decreases.

`Extends(cfg, a, b, depth)` is the invariant the crawl keeps between a
state `a` and a later state `b`:

- the visited set grows by exactly the newly loaded URLs;
- no new load repeats a URL, neither one visited before nor one loaded
  earlier in the step;
- every new load happened at a depth in `depth..max_depth`;
- the URLs of the new records are among the new loads, in load order.

A crawl's count is exact in two cases: when corrected, and as written on a
site where `urljoin` never raises (`JoinTotal`). In both, the count equals
the records emitted.

## Model

| member | source | states |
|---|---|---|
| `Scraper.IsValidUrl` | data-tools/data-scraper.py:54-56 | A URL is admitted exactly when its network location is non-empty and some configured base string occurs in it. |
| `Scraper.MatchesAnyBase` | data-tools/data-scraper.py:56 | `any(base in url for base in base_urls)` holds exactly when some base occurs in the URL. |
| `Text.Contains` | data-tools/data-scraper.py:56 | Python's substring test holds exactly when the needle occurs at some index of the haystack. |
| `Scraper.IsListing` | data-tools/data-scraper.py:95 | A page is a listing page exactly when "Category:" occurs at some index of its URL. |
| `Scraper.AnchorTargets` | data-tools/data-scraper.py:99-102 | The targets taken from a group's anchors are exactly the non-empty `href` values present, and there are no more of them than anchors. |
| `Scraper.LinkTargets` | data-tools/data-scraper.py:97-102 | The targets of a listing page are exactly the non-empty `href` values of anchors in some category group. |
| `Scraper.Resolved` | data-tools/data-scraper.py:99-103 | The URLs a listing page's loop resolves are each `urljoin` of the page URL and one of its link targets, no more than the targets. Corrected, every target that resolves contributes its URL. |
| `Scraper.ContentRecord` | data-tools/data-scraper.py:111-117 | A content page's record carries its URL and its `<title>` text, or the URL when there is no title. Its content is the stripped content-div text: trimmed, no longer, and empty exactly when the text is all whitespace. |
| `Scraper.Extracted` | data-tools/data-scraper.py:95-117 | A page yields a record exactly when it is not a listing page, its load succeeds and it has a content div. The record carries the page's URL and trimmed content. |
| `Scraper.ScrapePage` | data-tools/data-scraper.py:71-128 | Beyond the depth bound or for a visited URL the call returns 0 and leaves the state unchanged. Otherwise the URL ends up visited and the first load the call makes is that URL at that depth. Visited set, load log and records only grow. |
| `Scraper.ScrapeLinks` | data-tools/data-scraper.py:98-106 | The link loop of a listing page only grows the visited set, the load log and the records. |
| `Scraper.FollowLink` | data-tools/data-scraper.py:103-106 | A resolved link that `is_valid_url` rejects, or that is already visited, changes nothing and counts 0. Below the depth bound a valid link ends up visited. The state only grows. |
| `Scraper.ScrapePageComplete` | data-tools/data-scraper.py:71-128 | The records a `scrape_page` call adds are exactly what the pages it loads yield, in load order. Every load after the page's own is a valid link target made deeper than the page. |
| `Scraper.ScrapeLinksComplete` | data-tools/data-scraper.py:97-106 | The same for a listing page's link loop: it emits exactly what the pages it loads yield, and each of those pages is a valid link target loaded below the listing page. |
| `Scraper.LinksFollowDocumentOrder` | data-tools/data-scraper.py:97-106 | One level below a listing page, the loop loads only URLs it resolved, in the order of its links. |
| `Scraper.LinksVisitResolved` | data-tools/data-scraper.py:100-106 | When the level below the listing page is within the depth bound, every URL the loop resolved that `is_valid_url` admits is visited when the loop ends. |
| `Scraper.ListingFollowsItsLinks` | data-tools/data-scraper.py:95-106 | A listing page loads, one level below itself, only the URLs its category links resolve to, in document order. Below the depth bound, every such URL that `is_valid_url` admits ends up visited. |
| `Scraper.ScrapePageSound` | data-tools/data-scraper.py:72-128 | A call loads no URL twice, none visited before it and none outside `depth..max_depth`. The visited set grows by exactly the loaded URLs. Every load after the page's own is a URL `is_valid_url` admitted, made deeper than the page. The new records are exactly what the loaded pages yield, in load order: every loaded content page with a content div contributes its record, and nothing else is emitted. The returned count never exceeds the new records. It equals them when corrected, and also as written on a site where no `urljoin` raises. The loads after the page's own form a depth-first, pre-order walk: each follows a link of its parent, with nothing shallower in between. |
| `Scraper.ScrapeLinksSound` | data-tools/data-scraper.py:95-106 | The same guarantees for a listing page's link loop, one level below the page. One level below the page it loads only URLs its links resolved to, in document order. Below the depth bound, every resolved URL that `is_valid_url` admits is visited when the loop ends. Each load is one of the page's resolved links one level down, or follows a link of its parent among the loop's own loads. Corrected, or as written where no `urljoin` raises, the loop never aborts and its count equals its records. |
| `Scraper.ScrapePageDepthFirst` | data-tools/data-scraper.py:95-106 | Every load a `scrape_page` call makes after its own page has a parent among the call's loads. The parent is one level up: a loaded listing page, one of whose category links resolves to the load's URL. Every load in between is at least as deep, so subtrees are walked depth-first, one after another. |
| `Scraper.ScrapeLinksDepthFirst` | data-tools/data-scraper.py:97-106 | Every load of a listing page's link loop is a resolved link of the page one level down, or has its parent among the loop's own loads. |
| `Scraper.BreadthFirstOrderExcluded` | data-tools/data-scraper.py:98-106 | Loading a listing page, then its links `c1` and `c2`, and only then `g1` (a link of `c1`), is not a depth-first order when `c2` is a content page. |
| `Scraper.PageAgrees` | data-tools/data-scraper.py:100-106 | On a site where no `urljoin` raises, the crawl as written and the corrected crawl produce the same state and the same count. |
| `Scraper.LinksAgree` | data-tools/data-scraper.py:98-106 | On such a site, a listing page's link loop is the same in both variants. |
| `Scraper.FailedLoadEmitsNothing` | data-tools/data-scraper.py:75-86 | A failed load returns 0 and emits no record. The URL stays visited and is logged as loaded once. |
| `Scraper.ContentPageEmitsOwnRecord` | data-tools/data-scraper.py:108-119 | A content page emits one record when it has a content div and none otherwise. The record's title falls back to the URL when there is no title, and its content is stripped. |
| `Scraper.ListingEmitsNoOwnRecord` | data-tools/data-scraper.py:95-106 | No record emitted while a listing page is scraped carries the listing page's own URL. |
| `Scraper.LinksScrapedInDocumentOrder` | data-tools/data-scraper.py:97-106 | For a listing page with content links A then B, A's record is appended before B's and the page reports 2. |
| `Scraper.FailedSiblingDoesNotStopListing` | data-tools/data-scraper.py:100-106 | A link whose page fails to load does not stop the next link of the same listing page from being scraped. |
| `Scraper.RaisingLinkAfterRecord` | data-tools/data-scraper.py:100-128 | A link that cannot be resolved, after a link whose record was appended: as written the listing page reports 0 while one record was appended; corrected it reports 1. |
| `Scraper.ListingMiscountExample` | data-tools/data-scraper.py:100-128 | On a concrete two-link site, one record reaches the file while the as-written crawl reports 0. The corrected crawl reports 1. |
| `Scraper.ExtendsTransitive` | data-tools/data-scraper.py:155-157 | Two consecutive crawl steps sharing one visited set make one step with all the same guarantees. |
| `Scraper.StartUrlStep` | data-tools/data-scraper.py:155-158 | Scraping one more start URL at depth 0 keeps the run's guarantees and appends the page's records after the earlier ones. |
| `Scraper.CrawlFrom` | data-tools/data-scraper.py:154-158 | Scraping start URLs one after another at depth 0, sharing one visited set, only grows the state. Within the depth bound, every start URL ends up visited. |
| `Scraper.CrawlFromSound` | data-tools/data-scraper.py:154-158 | Folding `scrape_page` over further start URLs keeps the run's guarantees. No URL is loaded twice or beyond the bound. Every load is a start URL at depth 0 or a valid link target deeper down. The records are exactly what the loaded pages yield, in load order. The summed count never exceeds the new records. It equals them when corrected, and also as written where no `urljoin` raises. |
| `Scraper.RunSound` | data-tools/data-scraper.py:154-158 | A whole run from an empty visited set satisfies `SoundRun`. No URL is loaded twice. Every load is within `0..max_depth`, and is a start URL or a valid link target. The visited set is exactly the loaded URLs. The records are exactly what the loaded pages yield, so no two share a URL. The total never exceeds the records. It equals them when corrected, and also as written where no `urljoin` raises. |
| `Scraper.RunGuarantees` | data-tools/data-scraper.py:154-158 | After a run from an empty visited set, no URL was loaded twice and all loads were within `0..max_depth`. The visited set is exactly the loaded URLs, and no two records share a URL. |
| `Scraper.CrawlStartUrls` | data-tools/data-scraper.py:154-158 | The start-URL loop ends with the total and state of the fold of `scrape_page` over the start URLs. The raw file as written holds each emitted record appended in turn, and the corrected writer holds the open array of them. |
| `Scraper.ScrapeWiki` | data-tools/data-scraper.py:130-173 | The final state and `total_count` are those of `scrape_page` folded over the start URLs in order, from an empty visited set, counts summed. Every start URL is visited (for `max_depth` ≥ 0). No URL is loaded twice or beyond the depth bound. Every load is a start URL at depth 0 or a valid link target deeper down. The records are exactly what the loaded pages yield, in load order. `total_count` never exceeds the records. It equals them when corrected, and also as written where no `urljoin` raises. With one or more records the file is the framed array of them. As written, a run with no records leaves "\n]"; corrected, it leaves the empty array. |
| `JsonArray.Create` | data-tools/data-scraper.py:26-27 | The new file is the empty array without its closing. Finalising it at once leaves only "\n]". |
| `JsonArray.Append` | data-tools/data-scraper.py:58-69 | `append_data` keeps what the file held, writes the item after it and ends the file with ",\n". Finalising right after the append closes the array just behind the item, so the trailing comma the append leaves is the one `finalize_json` removes. |
| `JsonArray.AppendAll` | data-tools/data-scraper.py:58-62 | After n ≥ 1 appends the file is what it was, then the items joined by ",\n", then ",\n". With no appends it is unchanged. |
| `JsonArray.AppendAllConcat` | data-tools/data-scraper.py:155-157 | Appending one batch of records and then another is the same as appending their concatenation. |
| `JsonArray.Finalize` | data-tools/data-scraper.py:64-69 | `finalize_json` removes the last comma and newline and closes the array: a file ending in ",\n" becomes its text before the ",\n" followed by "\n]". In general it keeps all but the last two characters and closes with "\n]", so the length does not change. |
| `JsonArray.FinalizeFramesItems` | data-tools/data-scraper.py:26-27 | After n ≥ 1 appends to a new file, finalisation yields "[\n" + item₁ + ",\n" + … + ",\n" + itemₙ + "\n]". |
| `JsonArray.FinalizeWithoutItemsIsMalformed` | data-tools/data-scraper.py:64-69 | With no appends, the truncation eats the opening "[\n" and the file is "\n]", which frames no item sequence at all. |
| `JsonArray.Write` | data-tools/data-scraper.py:58-62 | Corrected writer: writing an item to an open array of `done` gives the open array of `done` followed by the item. |
| `JsonArray.WriteAll` | data-tools/data-scraper.py:58-62 | Corrected writer: writing a batch extends the open array by the whole batch. |
| `JsonArray.CloseFramesItems` | data-tools/data-scraper.py:64-69 | Corrected writer: closing frames every item sequence, the empty one included. |
| `JsonArray.WritersAgree` | data-tools/data-scraper.py:58-69 | When at least one item was written, both writers produce the same text. |
| `Text.Strip` | data-tools/data-scraper.py:116 | `str.strip()` returns a text with no whitespace at either end, no longer than its input, and empty exactly when the input was all whitespace. |
| `Text.StripSplits` | data-tools/data-scraper.py:116 | The stripped text is a slice of the input, and everything cut away on either side is whitespace. |
| `Text.StripUnique` | data-tools/data-sorter.py:50 | Whatever whitespace surrounds a trimmed text, stripping recovers exactly that text. |
| `Text.StripIdempotent` | data-tools/data-sorter.py:50 | Stripping twice is the same as stripping once. |
| `Sorter.Eligible` | data-tools/data-sorter.py:50-53 | An entry is processed exactly when it is an object with a `title` and a string `content` whose stripped text is non-empty. |
| `Sorter.Transform` | data-tools/data-sorter.py:55-59 | An eligible entry's instruction is "Explain the Arma command: " followed by its title. Its input is empty, and its output is its stripped content: non-empty, trimmed, and no longer than the content. |
| `Sorter.HandleEntry` | data-tools/data-sorter.py:49-66 | The loop body keeps an entry exactly when it is eligible, producing that entry's record. It raises exactly for a non-object entry, and only as written. |
| `Sorter.ProcessEntries` | data-tools/data-sorter.py:47-66 | The loop fails exactly when, as written, some entry is not an object. Otherwise it yields the records of the eligible entries in input order. |
| `Sorter.ProcessWikiData` | data-tools/data-sorter.py:35-79 | A missing input file fails with `InputNotFound` before any entry is examined, and an unparsable one fails too. A raising handler fails the batch. On success the output is the expected records, one serialised record per line; on failure there is no output. |
| `Sorter.JsonLines` | data-tools/data-sorter.py:68-71 | The output file is empty exactly when there are no records. Otherwise it ends with a newline and holds at least one character per record. |
| `Sorter.JsonLinesRoundTrip` | data-tools/data-sorter.py:68-71 | Reading the output file back line by line yields the serialised records in order, as long as no serialisation holds a raw newline. |
| `Sorter.ExpectedRecordsAreClean` | data-tools/data-sorter.py:50-59 | Every output record comes from an eligible input entry. Its instruction is "Explain the Arma command: " + that entry's title and its input is "". Its output is the entry's stripped content: non-empty, trimmed, and unchanged by stripping again. |
| `Sorter.ExpectedIsImageOfFilter` | data-tools/data-sorter.py:47-59 | The output is, position by position, the record of each eligible entry in the order the entries come. |
| `Sorter.OutputFollowsInputOrder` | data-tools/data-sorter.py:47-59 | The output is the image of a subsequence of the input. It has exactly as many records as there are eligible entries, never more than the entries. |
| `Sorter.IneligibleEntryIsSkipped` | data-tools/data-sorter.py:50-63 | An entry with blank content or a missing key adds nothing, and the entries around it are processed as if it were absent. |
| `Sorter.ObjectEntriesNeverAbort` | data-tools/data-sorter.py:61-63 | When corrected, or when every entry is an object, whatever keys an entry lacks, the batch never aborts and yields the expected records. |
| `Sorter.PaddedContentRecord` | data-tools/data-sorter.py:55-59 | An entry whose content is a trimmed, non-empty text padded with whitespace becomes the record of that text under its title. |
| `Sorter.HelloExample` | data-tools/data-sorter.py:55-59 | `{"title": "T", "url": "U", "content": "  hello  "}` becomes `{"instruction": "Explain the Arma command: T", "input": "", "output": "hello"}`. |
| `Sorter.BlankContentDropped` | data-tools/data-sorter.py:50-53 | An entry whose content is all whitespace produces no record. |
| `Sorter.NonObjectEntryAbortsBatch` | data-tools/data-sorter.py:64-66 | As written, a good entry followed by a non-object entry fails the whole batch. Corrected, the good entry's record is kept. |

## Left out

- Playwright's browser, navigation, timeouts and `networkidle` waits are external I/O. They become `Site.fetch`: a failed load covers a response that is not ok and any exception raised while loading or reading the page.
- BeautifulSoup parsing is a foreign library. It becomes the `Page` record: category groups of anchors, optional title text and optional content-div text. A content div that is present but empty still yields a record, because a bs4 tag is always truthy.
- `urljoin` and `urlparse` are uninterpreted functions (`Site.join`, `Site.netloc`). Reference resolution (section 5.2 of RFC 3986) and authority parsing (section 3.2 of RFC 3986) are out of scope. `urlparse` inside `is_valid_url` is taken not to raise, since `urljoin` parses the same text first.
- `time.sleep(rate_limit)` is taken to have no functional effect: the configuration is assumed to have `rate_limit` ≥ 0. A negative value makes `time.sleep` raise ValueError inside the `try` for every page that loads. The handler then returns 0, so no listing is expanded and no record is emitted. That run is the same as a `Site` whose `fetch` fails everywhere.
- `json.dump`, `json.dumps`, `json.load` and `yaml.safe_load` are not modelled. Records are serialised by an opaque function, and the configuration arrives already parsed. A failing `load_config` is not modelled.
- Byte-level `seek`, `truncate` and `write` become the string operation they perform. `json.dump` escapes non-ASCII, and text-mode writes are taken to pass "\n" through unchanged, as on POSIX systems; there, characters and bytes coincide. Newline translation on Windows is not modelled: there `",\n"` is written as three bytes, so cutting two leaves `",\n]"` after a non-empty run and `"[\n]"` after an empty one.
- File-system failures are not modelled: `mkdir`, `append_data` or the output write raising midway.
- Exceptions raised inside the scraper's own `except` handler (logging, console output) are not modelled, and neither are browser launch failures in `scrape_wiki`.
- Python's recursion limit is not modelled; the crawl's depth is bounded only by `max_depth`.
- In the transformer, a top-level JSON value that is not an array is not modelled: `InputFile.Parsed` always holds an array of entries.
- Rich console output, progress bars, traceback installation, logging and the unused `pandas` import are taken as observability only. That holds under one assumption: no URL, page title or exception message that `console.print` interpolates (data-scraper.py:81, 105, 112, 127) contains a Rich closing tag with nothing to close, such as `[/]` or `[/x]`. If one does, Rich raises MarkupError inside the `try`, and the handler's own `console.print` at line 127 raises again on the same text. That exception escapes every enclosing `scrape_page` and reaches the fatal re-raise in `scrape_wiki` (lines 170-173). `finalize_json` then never runs, the raw file stays unclosed and no total is reported; for example, a listing page whose link resolves to `http://w/a[/x]` aborts the run. The model does not cover that abort: it loads such a link like any other.
- Scraper.ScrapeWiki: completeness is stated per link loop and per page (`ScrapeLinksSound`, `ScrapePageSound`), not as "every valid URL reachable from a start URL within `max_depth` is loaded". That statement is false for the code. The visited set is shared across the depth-first walk, so a page first reached deep down is not revisited when a shallower link to it appears later, and its own links beyond the bound are never followed.
- Scraper.AnchorTargets: only membership and length are stated. Document order of the targets follows from the definition and is used by the two-link lemmas.
- Scraper.LinkTargets: only membership is stated. Group order follows from the definition.

## Findings

| source | as written | input that shows it | evidently intended | confidence | as-written member | corrected member |
|---|---|---|---|---|---|---|
| data-tools/data-scraper.py:64-69 | `finalize_json` always cuts the last two characters, even when no record was appended. The file then holds "\n]" instead of an array. | A run in which no page yields a record, e.g. every start URL fails to load. | An empty run leaves the empty array "[\n\n]"; the separator goes only between items. | high (with POSIX newline handling), not executed | `JsonArray.FinalizeWithoutItemsIsMalformed` | `JsonArray.CloseFramesItems` |
| data-tools/data-scraper.py:100-128 | An exception while resolving one link of a listing page (`urljoin` raising) ends the page's loop. The handler returns 0 for the page, although records from earlier links were already appended. `total_count` then undercounts the file. | A listing page `http://w/Category:X` whose links are `a` (a content page) and `http://[x` (`urljoin` raises "Invalid IPv6 URL"). | The failing link is skipped, and the page's count equals the records appended below it. | medium, not executed | `Scraper.ListingMiscountExample` | `Scraper.ScrapePageSound` |
| data-tools/data-sorter.py:64-66 | The generic handler calls `entry.get(...)`, which raises again for an entry that is not a JSON object. That exception escapes the loop and aborts the whole batch, and no output is written. | A raw array `[{"title": "T", "content": "x"}, "oops"]`. | The malformed entry is logged and skipped, like an entry with a missing key. | medium, not executed | `Sorter.NonObjectEntryAbortsBatch` | `Sorter.ObjectEntriesNeverAbort` |

=== FILE: json_array.dfy ===
/** The raw document file `raw_wiki_data.json` is written as a JSON array,
    one serialised record at a time (data-scraper.py:26-27, 58-69). Records
    are opaque strings here: their own JSON syntax is not modelled. */
module JsonArray {

  const Opening: string := "[\n"
  const Separator: string := ",\n"
  const Closing: string := "\n]"

  /** `items` with `sep` between neighbours. */
  function Join(items: seq<string>, sep: string): string
    decreases |items|
  {
    if |items| == 0 then ""
    else if |items| == 1 then items[0]
    else items[0] + sep + Join(items[1..], sep)
  }

  /** The well-formed array text holding `items` in order: the reference
      for what the finished file should contain. With no items it is
      "[\n\n]", an empty JSON array. */
  function Framed(items: seq<string>): string {
    Opening + Join(items, Separator) + Closing
  }

  /** Every framed text opens with "[": in particular the "\n]" that the
      as-written writer leaves for zero records is not one of them. */
  lemma FramedOpensWithBracket(items: seq<string>)
    ensures Framed(items)[0] == '['
    ensures Framed(items) != Closing
  {
    assert Framed(items) == "[" + ("\n" + Join(items, Separator) + Closing);
  }

  /** Joining one more item at the end adds one separator. */
  lemma {:induction false} JoinSnoc(items: seq<string>, x: string, sep: string)
    requires |items| >= 1
    ensures Join(items + [x], sep) == Join(items, sep) + sep + x
    decreases |items|
  {
    if |items| == 1 {
      assert items + [x] == [items[0], x];
      assert [items[0], x][1..] == [x];
    } else {
      assert (items + [x])[1..] == items[1..] + [x];
      JoinSnoc(items[1..], x, sep);
    }
  }

  // ---------------------------------------------------------------------
  // The writer as written: open with "[\n", append `item + ",\n"` per
  // record, then cut the last two characters and close with "\n]".
  // json.dump writes ASCII only, and text-mode writes are taken to pass
  // "\n" through unchanged (as on POSIX systems), so characters and bytes
  // coincide.
  // ---------------------------------------------------------------------

  /** The file right after it is created: the empty array without its
      closing. Finalising it straight away leaves only "\n]". */
  function Create(): (r: string)
    ensures r + Closing == Framed([])
    ensures Finalize(r) == Closing
  {
    Opening
  }

  /** `append_data`: the item and a trailing separator go after what is
      already in the file, which is left untouched; finalising right after
      the append closes the array just behind the item. */
  function Append(file: string, item: string): (r: string)
    ensures |r| == |file| + |item| + |Separator|
    ensures r[..|file|] == file
    ensures r[|file|..|file| + |item|] == item
    ensures r[|r| - |Separator|..] == Separator
    ensures Finalize(r) == file + item + Closing
  {
    assert (file + item + Separator)[..|file| + |item|] == file + item;
    file + item + Separator
  }

  /** Appending `items` one after another: each is followed by a separator,
      and what was there before is kept. */
  function AppendAll(file: string, items: seq<string>): (r: string)
    ensures items == [] ==> r == file
    ensures items != [] ==> r == file + Join(items, Separator) + Separator
    decreases |items|
  {
    if items == [] then file
    else
      var r := AppendAll(file + items[0] + Separator, items[1..]);
      if |items| == 1 then r
      else
        assert r == file + items[0] + Separator + Join(items[1..], Separator) + Separator;
        r
  }

  /** Appending two batches one after the other is appending their
      concatenation: records may be streamed in any grouping. */
  lemma {:induction false} AppendAllConcat(file: string, xs: seq<string>, ys: seq<string>)
    ensures AppendAll(AppendAll(file, xs), ys) == AppendAll(file, xs + ys)
    decreases |xs|
  {
    if xs == [] {
      assert xs + ys == ys;
    } else {
      assert (xs + ys)[1..] == xs[1..] + ys;
      AppendAllConcat(Append(file, xs[0]), xs[1..], ys);
    }
  }

  /** `finalize_json`: drop the last two characters of the file and close
      the array. The file must hold at least two characters, since seeking
      two characters back from the end fails otherwise; `Create` already
      writes two. */
  function Finalize(file: string): (r: string)
    requires |file| >= 2
    ensures |r| == |file|
    ensures r[..|file| - 2] == file[..|file| - 2]
    ensures r[|file| - 2..] == Closing
    ensures forall p | file == p + Separator :: r == p + Closing
  {
    file[..|file| - 2] + Closing
  }

  /** After at least one append, finalising yields the framed array. */
  lemma FinalizeFramesItems(items: seq<string>)
    requires |items| >= 1
    ensures Finalize(AppendAll(Create(), items)) == Framed(items)
  {
    var body := Opening + Join(items, Separator);
    assert AppendAll(Create(), items) == body + Separator;
  }

  /** With no appends, the truncation eats the opening "[\n" and the file
      holds "\n]", which is not a JSON array at all. */
  lemma FinalizeWithoutItemsIsMalformed()
    ensures Finalize(AppendAll(Create(), [])) == Closing
    ensures forall items :: Finalize(AppendAll(Create(), [])) != Framed(items)
  {
    forall items ensures Closing != Framed(items) {
      FramedOpensWithBracket(items);
    }
  }

  // ---------------------------------------------------------------------
  // The corrected writer: remember whether an item has been written and
  // put the separator before every item but the first.
  // ---------------------------------------------------------------------

  /** Array text written so far, and how many items it holds. */
  datatype ArrayWriter = ArrayWriter(text: string, count: nat)

  /** `w` holds exactly the open array of `done`. */
  predicate Holds(w: ArrayWriter, done: seq<string>) {
    w.count == |done| && w.text == Opening + Join(done, Separator)
  }

  function Open(): (w: ArrayWriter)
    ensures Holds(w, [])
  {
    ArrayWriter(Opening, 0)
  }

  /** Write one item, preceded by a separator unless it is the first. */
  function Write(w: ArrayWriter, item: string): (r: ArrayWriter)
    ensures forall done | Holds(w, done) :: Holds(r, done + [item])
  {
    if w.count == 0 then
      assert forall done | Holds(w, done) :: done + [item] == [item];
      ArrayWriter(w.text + item, 1)
    else
      assert forall done | Holds(w, done) :: Join(done + [item], Separator) == Join(done, Separator) + Separator + item by {
        forall done | Holds(w, done) ensures Join(done + [item], Separator) == Join(done, Separator) + Separator + item {
          JoinSnoc(done, item, Separator);
        }
      }
      ArrayWriter(w.text + Separator + item, w.count + 1)
  }

  function WriteAll(w: ArrayWriter, items: seq<string>): (r: ArrayWriter)
    ensures forall done | Holds(w, done) :: Holds(r, done + items)
    decreases |items|
  {
    if items == [] then
      assert forall done: seq<string> :: done + items == done;
      w
    else
      var w' := Write(w, items[0]);
      assert forall done: seq<string> :: done + [items[0]] + items[1..] == done + items;
      WriteAll(w', items[1..])
  }

  /** Close the array. */
  function Close(w: ArrayWriter): string {
    w.text + Closing
  }

  /** The corrected writer frames every item sequence, including the empty
      one. */
  lemma CloseFramesItems(items: seq<string>)
    ensures Close(WriteAll(Open(), items)) == Framed(items)
  {
    assert [] + items == items;
    assert Holds(WriteAll(Open(), items), items);
  }

  /** Whenever the as-written writer gets it right, both writers produce
      the same text. */
  lemma WritersAgree(items: seq<string>)
    requires |items| >= 1
    ensures Close(WriteAll(Open(), items)) == Finalize(AppendAll(Create(), items))
  {
    CloseFramesItems(items);
    FinalizeFramesItems(items);
  }
}

=== FILE: scraper.dfy ===
/** The crawler of data-tools/data-scraper.py (class `ArmaScraper`).

    The browser, the HTML parser and the URL library are replaced by a
    `Site`: an oracle that says, for each URL, whether loading it succeeds
    and what the parsed page offers, and how links are resolved and parsed.
    The visited set, the navigation log and the emitted records are
    threaded through the recursion as a `CrawlState`. */
module Scraper {
  import opened Wrappers
  import opened Seqs
  import opened Variants
  import Text
  import JsonArray

  // -----------------------------------------------------------------------
  // Data model
  // -----------------------------------------------------------------------

  /** One `<a>` element of a `mw-category-group` div; `href` is None when
      the attribute is missing. */
  datatype Anchor = Anchor(href: Option<string>)

  /** What the parsed page offers the scraper: its category groups of links
      in document order, the text of its `<title>` element if there is one,
      and the raw text of its `mw-parser-output` div if there is one. */
  datatype Page = Page(groups: seq<seq<Anchor>>, title: Option<string>, contentText: Option<string>)

  /** The world outside the script.
      - `fetch(u)`: None when `page.goto(u)` raises or answers with a status
        that is not ok, or when reading the page afterwards raises;
        otherwise the parsed page.
      - `join(base, href)`: `urljoin(base, href)`, None when it raises.
      - `netloc(u)`: the network location of `urlparse(u)`. */
  datatype Site = Site(
    fetch: string -> Option<Page>,
    join: (string, string) -> Option<string>,
    netloc: string -> string)

  /** `urljoin` resolves every link: no resolution raises. */
  ghost predicate JoinTotal(site: Site) {
    forall base, href :: site.join(base, href).Some?
  }

  /** The cases in which a crawl's count is exact: the corrected crawl, or
      the crawl as written on a site where no link resolution raises. */
  ghost predicate Exact(site: Site, v: Variant) {
    v == Corrected || JoinTotal(site)
  }

  /** The parsed `scraper.yml`: allowed base substrings, depth bound and
      start URLs (`rate_limit` only makes the script sleep). */
  datatype Config = Config(baseUrls: seq<string>, maxDepth: int, startUrls: seq<string>)

  /** One entry of `raw_wiki_data.json`. */
  datatype RawRecord = RawRecord(title: string, url: string, content: string)

  /** One call of `page.goto`: the URL and the recursion depth it was made at. */
  datatype Visit = Visit(url: string, depth: int)

  /** The scraper's mutable state: `visited_urls`, the log of page loads,
      and the records appended to the raw file, oldest first. */
  datatype CrawlState = CrawlState(visited: set<string>, navigations: seq<Visit>, records: seq<RawRecord>)

  /** The value `scrape_page` returns, with the state it leaves behind. */
  datatype Step = Step(count: nat, state: CrawlState)

  /** Progress through the links of a listing page; `raised` records that an
      exception escaped the loop. */
  datatype LinkStep = LinkStep(count: nat, state: CrawlState, raised: bool)

  /** What a full run hands back: `total_count`, the final state and the
      text of the raw file after finalisation. */
  datatype CrawlReport = CrawlReport(total: nat, state: CrawlState, file: string)

  /** The state of a newly constructed `ArmaScraper`. */
  const Initial: CrawlState := CrawlState({}, [], [])

  /** The literal the script looks for to recognise a listing page. */
  const ListingMarker: string := "Category:"

  // -----------------------------------------------------------------------
  // URL checks
  // -----------------------------------------------------------------------

  /** Some configured base occurs in `url`. */
  function MatchesAnyBase(url: string, bases: seq<string>): (r: bool)
    ensures r <==> exists k :: 0 <= k < |bases| && Text.Contains(url, bases[k])
    decreases |bases|
  {
    if bases == [] then false
    else if Text.Contains(url, bases[0]) then true
    else
      var r := MatchesAnyBase(url, bases[1..]);
      assert forall k :: 1 <= k < |bases| ==> bases[k] == bases[1..][k - 1];
      r
  }

  /** `is_valid_url`: the URL has a network location and contains one of the
      configured base strings. */
  function IsValidUrl(site: Site, cfg: Config, url: string): (r: bool)
    ensures r <==> site.netloc(url) != [] && exists k :: 0 <= k < |cfg.baseUrls| && Text.Contains(url, cfg.baseUrls[k])
  {
    site.netloc(url) != [] && MatchesAnyBase(url, cfg.baseUrls)
  }

  /** A listing page is recognised by its URL alone: "Category:" occurs
      somewhere in it. */
  function IsListing(url: string): (r: bool)
    ensures r <==> exists i :: Text.OccursAt(url, ListingMarker, i)
  {
    Text.Contains(url, ListingMarker)
  }

  /** A link counts when its `href` is present and not empty. */
  predicate HasTarget(a: Anchor) {
    a.href.Some? && a.href.value != []
  }

  /** The targets of the anchors that have one, in order. */
  function AnchorTargets(anchors: seq<Anchor>): (r: seq<string>)
    ensures |r| <= |anchors|
    ensures forall h :: h in r <==> h != [] && Anchor(Some(h)) in anchors
    decreases |anchors|
  {
    if anchors == [] then []
    else
      var rest := AnchorTargets(anchors[1..]);
      assert forall a :: a in anchors <==> a == anchors[0] || a in anchors[1..];
      if HasTarget(anchors[0]) then [anchors[0].href.value] + rest else rest
  }

  /** The link targets of a listing page: groups in document order, anchors
      within a group in document order. */
  function LinkTargets(groups: seq<seq<Anchor>>): (r: seq<string>)
    ensures forall h :: h in r <==> h != [] && exists g :: 0 <= g < |groups| && Anchor(Some(h)) in groups[g]
    decreases |groups|
  {
    if groups == [] then []
    else
      var r := AnchorTargets(groups[0]) + LinkTargets(groups[1..]);
      assert forall g :: 1 <= g < |groups| ==> groups[g] == groups[1..][g - 1];
      r
  }

  // -----------------------------------------------------------------------
  // Extraction from a content page
  // -----------------------------------------------------------------------

  /** The record built from a content page: its title, or the URL when the
      page has no `<title>`, and the stripped text of the content div. */
  function ContentRecord(url: string, page: Page, text: string): (r: RawRecord)
    ensures r.url == url
    ensures page.title.Some? ==> r.title == page.title.value
    ensures page.title.None? ==> r.title == url
    ensures Text.Trimmed(r.content) && |r.content| <= |text|
    ensures r.content == [] <==> Text.AllSpace(text)
  {
    RawRecord(page.title.GetOr(url), url, Text.Strip(text))
  }

  /** What the page at `url` yields as a record when it is scraped: nothing
      for a listing page, a failed load or a page without a content div. */
  function Extracted(site: Site, url: string): (r: Option<RawRecord>)
    ensures r.Some? <==> !IsListing(url) && site.fetch(url).Some? && site.fetch(url).value.contentText.Some?
    ensures r.Some? ==> r.value.url == url && Text.Trimmed(r.value.content)
  {
    if IsListing(url) then None
    else match site.fetch(url)
      case None => None
      case Some(page) =>
        match page.contentText
        case None => None
        case Some(text) => Some(ContentRecord(url, page, text))
  }

  /** Every record is exactly what its own page yields. */
  predicate Faithful(site: Site, recs: seq<RawRecord>) {
    forall i :: 0 <= i < |recs| ==> Extracted(site, recs[i].url) == Some(recs[i])
  }

  /** The record the page at `url` yields, if any, as a sequence. */
  function Yield(site: Site, url: string): (r: seq<RawRecord>)
    ensures |r| <= 1
  {
    match Extracted(site, url)
    case None => []
    case Some(rec) => [rec]
  }

  /** The records the pages at `urls` yield when they are scraped, in
      order: the reference for what a crawl that loaded `urls` emits. */
  function Yields(site: Site, urls: seq<string>): (r: seq<RawRecord>)
    ensures |r| <= |urls|
    decreases |urls|
  {
    if urls == [] then [] else Yield(site, urls[0]) + Yields(site, urls[1..])
  }

  /** What a page in front of others yields comes first. */
  lemma YieldsCons(site: Site, x: string, rest: seq<string>)
    ensures Yields(site, [x] + rest) == Yield(site, x) + Yields(site, rest)
  {
    assert ([x] + rest)[0] == x;
    assert ([x] + rest)[1..] == rest;
  }

  /** What two batches of pages yield is what each yields, in turn. */
  lemma {:induction false} YieldsConcat(site: Site, u1: seq<string>, u2: seq<string>)
    ensures Yields(site, u1 + u2) == Yields(site, u1) + Yields(site, u2)
    decreases |u1|
  {
    if u1 == [] {
      assert u1 + u2 == u2;
    } else {
      var x, t := u1[0], u1[1..];
      calc {
        Yields(site, u1 + u2);
        { assert u1 + u2 == [x] + (t + u2); }
        Yields(site, [x] + (t + u2));
        { YieldsCons(site, x, t + u2); }
        Yield(site, x) + Yields(site, t + u2);
        { YieldsConcat(site, t, u2); }
        Yield(site, x) + (Yields(site, t) + Yields(site, u2));
        (Yield(site, x) + Yields(site, t)) + Yields(site, u2);
        { YieldsCons(site, x, t); assert u1 == [x] + t; }
        Yields(site, u1) + Yields(site, u2);
      }
    }
  }

  // -----------------------------------------------------------------------
  // How a crawl step may change the state
  // -----------------------------------------------------------------------

  function Urls(navs: seq<Visit>): (r: seq<string>)
    ensures |r| == |navs| && forall i :: 0 <= i < |navs| ==> r[i] == navs[i].url
  {
    seq(|navs|, i requires 0 <= i < |navs| => navs[i].url)
  }

  /** The same projection as `Urls`, over records rather than loads: the
      two element types differ, so each has its own definition. */
  function RecordUrls(recs: seq<RawRecord>): (r: seq<string>)
    ensures |r| == |recs| && forall i :: 0 <= i < |recs| ==> r[i] == recs[i].url
  {
    seq(|recs|, i requires 0 <= i < |recs| => recs[i].url)
  }

  function UrlSet(navs: seq<Visit>): set<string> {
    set i | 0 <= i < |navs| :: navs[i].url
  }

  /** `b` is `a` after some scraping at depths from `depth` on:
      - the navigation log and the records only grow at the end;
      - the visited set grows by exactly the newly loaded URLs;
      - no new load repeats a URL, neither one visited before nor one
        loaded earlier in the step;
      - every new load happened at a depth in `depth..cfg.maxDepth`;
      - the new records' URLs are among the new loads, in load order. */
  ghost predicate Extends(cfg: Config, a: CrawlState, b: CrawlState, depth: int) {
    && |a.navigations| <= |b.navigations|
    && b.navigations[..|a.navigations|] == a.navigations
    && |a.records| <= |b.records|
    && b.records[..|a.records|] == a.records
    && var navs := b.navigations[|a.navigations|..];
    && b.visited == a.visited + UrlSet(navs)
    && NoDup(Urls(navs))
    && (forall i :: 0 <= i < |navs| ==> navs[i].url !in a.visited)
    && (forall i :: 0 <= i < |navs| ==> depth <= navs[i].depth <= cfg.maxDepth)
    && IsSubsequence(RecordUrls(b.records[|a.records|..]), Urls(navs))
  }

  /** The records `b` holds that `a` did not. */
  function NewRecords(a: CrawlState, b: CrawlState): seq<RawRecord>
    requires |a.records| <= |b.records|
  {
    b.records[|a.records|..]
  }

  lemma ExtendsReflexive(cfg: Config, a: CrawlState, depth: int)
    ensures Extends(cfg, a, a, depth)
  {
    assert a.navigations[|a.navigations|..] == [];
    assert a.records[|a.records|..] == [];
    assert UrlSet([]) == {};
  }

  lemma ExtendsWeaken(cfg: Config, a: CrawlState, b: CrawlState, depth: int, lower: int)
    requires Extends(cfg, a, b, depth) && lower <= depth
    ensures Extends(cfg, a, b, lower)
  {
  }

  /** A sequence that extends `x` is `x` followed by the rest. */
  lemma PrefixThenRest<T>(x: seq<T>, y: seq<T>)
    requires |x| <= |y| && y[..|x|] == x
    ensures y == x + y[|x|..]
  {
  }

  /** Splitting the growth of a prefix-extended sequence in two. */
  lemma SuffixSplit<T>(x: seq<T>, y: seq<T>, z: seq<T>)
    requires |x| <= |y| <= |z| && y[..|x|] == x && z[..|y|] == y
    ensures z[..|x|] == x
    ensures z[|x|..] == y[|x|..] + z[|y|..]
  {
    assert z[..|x|] == z[..|y|][..|x|];
  }

  /** The URL facts of two consecutive batches of loads carry over to the
      batches joined. */
  lemma {:induction false} NavigationsConcat(visited: set<string>, n1: seq<Visit>, n2: seq<Visit>, lo: int, hi: int)
    requires NoDup(Urls(n1)) && NoDup(Urls(n2))
    requires forall i :: 0 <= i < |n1| ==> n1[i].url !in visited && lo <= n1[i].depth <= hi
    requires forall i :: 0 <= i < |n2| ==> n2[i].url !in visited + UrlSet(n1) && lo <= n2[i].depth <= hi
    ensures UrlSet(n1 + n2) == UrlSet(n1) + UrlSet(n2)
    ensures Urls(n1 + n2) == Urls(n1) + Urls(n2)
    ensures NoDup(Urls(n1 + n2))
    ensures forall i :: 0 <= i < |n1 + n2| ==> (n1 + n2)[i].url !in visited && lo <= (n1 + n2)[i].depth <= hi
  {
    var n := n1 + n2;
    assert Urls(n) == Urls(n1) + Urls(n2);
    forall u | u in UrlSet(n) ensures u in UrlSet(n1) + UrlSet(n2) {
      var i :| 0 <= i < |n| && n[i].url == u;
      if i >= |n1| {
        assert n2[i - |n1|].url == u;
      }
    }
    forall u | u in UrlSet(n1) ensures u in UrlSet(n) {
      var i :| 0 <= i < |n1| && n1[i].url == u;
      assert n[i].url == u;
    }
    forall u | u in UrlSet(n2) ensures u in UrlSet(n) {
      var i :| 0 <= i < |n2| && n2[i].url == u;
      assert n[i + |n1|].url == u;
    }
    forall i | 0 <= i < |n| ensures n[i].url !in visited && lo <= n[i].depth <= hi {
      if i >= |n1| {
        assert n[i] == n2[i - |n1|];
      }
    }
    forall i, j | 0 <= i < j < |n| ensures Urls(n)[i] != Urls(n)[j] {
      if i < |n1| && j >= |n1| {
        assert n[i].url in UrlSet(n1);
        assert n[j] == n2[j - |n1|];
      } else if i >= |n1| {
        assert Urls(n)[i] == Urls(n2)[i - |n1|] && Urls(n)[j] == Urls(n2)[j - |n1|];
      }
    }
  }

  /** The record order of two consecutive batches carries over to the
      batches joined. */
  lemma RecordOrderConcat(r1: seq<RawRecord>, r2: seq<RawRecord>, n1: seq<Visit>, n2: seq<Visit>)
    requires IsSubsequence(RecordUrls(r1), Urls(n1)) && IsSubsequence(RecordUrls(r2), Urls(n2))
    ensures IsSubsequence(RecordUrls(r1 + r2), Urls(n1 + n2))
  {
    assert RecordUrls(r1 + r2) == RecordUrls(r1) + RecordUrls(r2);
    assert Urls(n1 + n2) == Urls(n1) + Urls(n2);
    SubsequenceConcat(RecordUrls(r1), Urls(n1), RecordUrls(r2), Urls(n2));
  }

  /** Two steps one after the other make one step. */
  lemma ExtendsTransitive(cfg: Config, a: CrawlState, b: CrawlState, c: CrawlState, depth: int)
    requires Extends(cfg, a, b, depth) && Extends(cfg, b, c, depth)
    ensures Extends(cfg, a, c, depth)
  {
    SuffixSplit(a.navigations, b.navigations, c.navigations);
    SuffixSplit(a.records, b.records, c.records);
    var n1 := b.navigations[|a.navigations|..];
    var n2 := c.navigations[|b.navigations|..];
    var n := c.navigations[|a.navigations|..];
    NavigationsConcat(a.visited, n1, n2, depth, cfg.maxDepth);
    var r1 := b.records[|a.records|..];
    var r2 := c.records[|b.records|..];
    RecordOrderConcat(r1, r2, n1, n2);
    assert n == n1 + n2;
    assert c.records[|a.records|..] == r1 + r2;
    assert c.visited == a.visited + UrlSet(n);
  }

  /** The URLs of a single load. */
  lemma UrlSetSingle(url: string, depth: int)
    ensures UrlSet([Visit(url, depth)]) == {url}
  {
    assert [Visit(url, depth)][0].url == url;
  }

  /** `st` after `url` is marked visited and loaded at `depth`. */
  function Loaded(st: CrawlState, url: string, depth: int): CrawlState {
    CrawlState(st.visited + {url}, st.navigations + [Visit(url, depth)], st.records)
  }

  /** Marking a new URL visited and loading it is a step. */
  lemma LoadedExtends(site: Site, cfg: Config, st: CrawlState, url: string, depth: int)
    requires url !in st.visited && depth <= cfg.maxDepth
    ensures Extends(cfg, st, Loaded(st, url, depth), depth)
    ensures Faithful(site, NewRecords(st, Loaded(st, url, depth)))
    ensures |NewRecords(st, Loaded(st, url, depth))| == 0
  {
    var st1 := Loaded(st, url, depth);
    assert st1.navigations[|st.navigations|..] == [Visit(url, depth)];
    assert st1.records[|st.records|..] == [];
    UrlSetSingle(url, depth);
  }

  /** Loading a content page and emitting its record is a step. */
  lemma EmittedExtends(site: Site, cfg: Config, st: CrawlState, url: string, depth: int, page: Page, text: string)
    requires url !in st.visited && depth <= cfg.maxDepth
    requires !IsListing(url) && site.fetch(url) == Some(page) && page.contentText == Some(text)
    ensures var st2 := Loaded(st, url, depth).(records := st.records + [ContentRecord(url, page, text)]);
      && Extends(cfg, st, st2, depth)
      && Faithful(site, NewRecords(st, st2))
      && |NewRecords(st, st2)| == 1
  {
    var rec := ContentRecord(url, page, text);
    var st2 := Loaded(st, url, depth).(records := st.records + [rec]);
    assert st2.navigations[|st.navigations|..] == [Visit(url, depth)];
    assert NewRecords(st, st2) == [rec];
    UrlSetSingle(url, depth);
    assert RecordUrls([rec]) == Urls([Visit(url, depth)]) == [url];
    SubsequenceReflexive([url]);
  }

  /** The new records of two consecutive steps are those of the first
      followed by those of the second. */
  lemma NewRecordsConcat(a: CrawlState, b: CrawlState, c: CrawlState)
    requires |a.records| <= |b.records| <= |c.records|
    requires b.records[..|a.records|] == a.records && c.records[..|b.records|] == b.records
    ensures NewRecords(a, c) == NewRecords(a, b) + NewRecords(b, c)
  {
    SuffixSplit(a.records, b.records, c.records);
  }

  /** Two steps one after the other: the combined step keeps every
      guarantee, and the records it emits are those of the two parts. */
  lemma StepsCompose(site: Site, cfg: Config, a: CrawlState, b: CrawlState, c: CrawlState, depth: int)
    requires Extends(cfg, a, b, depth) && Extends(cfg, b, c, depth)
    requires Faithful(site, NewRecords(a, b)) && Faithful(site, NewRecords(b, c))
    ensures Extends(cfg, a, c, depth)
    ensures Faithful(site, NewRecords(a, c))
    ensures |NewRecords(a, c)| == |NewRecords(a, b)| + |NewRecords(b, c)|
  {
    ExtendsTransitive(cfg, a, b, c, depth);
    NewRecordsConcat(a, b, c);
  }

  /** What a listing page's link loop achieves lifts to the page: the page's
      own load comes first, one level above its links. */
  lemma ListingStep(site: Site, cfg: Config, st: CrawlState, url: string, depth: int, after: CrawlState)
    requires url !in st.visited && depth <= cfg.maxDepth
    requires Extends(cfg, Loaded(st, url, depth), after, depth + 1)
    requires Faithful(site, NewRecords(Loaded(st, url, depth), after))
    ensures Extends(cfg, st, after, depth)
    ensures Faithful(site, NewRecords(st, after))
    ensures |NewRecords(st, after)| == |NewRecords(Loaded(st, url, depth), after)|
  {
    var st1 := Loaded(st, url, depth);
    LoadedExtends(site, cfg, st, url, depth);
    ExtendsWeaken(cfg, st1, after, depth + 1, depth);
    StepsCompose(site, cfg, st, st1, after, depth);
  }

  /** Nothing happens. */
  lemma NoStep(site: Site, cfg: Config, st: CrawlState, depth: int)
    ensures Extends(cfg, st, st, depth)
    ensures Faithful(site, NewRecords(st, st))
    ensures |NewRecords(st, st)| == 0
  {
    ExtendsReflexive(cfg, st, depth);
  }

  // -----------------------------------------------------------------------
  // The crawl
  // -----------------------------------------------------------------------

  /** Remaining recursion budget at `depth`; a call at a depth beyond the
      bound returns at once. */
  function Budget(cfg: Config, depth: int): nat {
    if depth > cfg.maxDepth then 0 else cfg.maxDepth + 1 - depth
  }

  /** `b` is `a` with more appended: the visited set, the navigation log
      and the records only grow, and the last two only at the end. */
  predicate Grows(a: CrawlState, b: CrawlState) {
    && a.visited <= b.visited
    && |a.navigations| <= |b.navigations| && b.navigations[..|a.navigations|] == a.navigations
    && |a.records| <= |b.records| && b.records[..|a.records|] == a.records
  }

  /** `scrape_page(page, url, depth)`.
      - Beyond the depth bound, or for a URL already visited, nothing
        happens and 0 is returned.
      - Otherwise the URL is marked visited before it is loaded; a failed
        load returns 0 and leaves the URL visited.
      - A listing page emits no record itself; its links are scraped one
        level deeper, in document order.
      - A content page emits one record if it has a content div.
      `ScrapePageSound` states what the call guarantees about the loads and
      records it adds. */
  function ScrapePage(site: Site, cfg: Config, v: Variant, url: string, depth: int, st: CrawlState): (r: Step)
    ensures Grows(st, r.state)
    ensures depth > cfg.maxDepth || url in st.visited ==> r == Step(0, st)
    ensures depth <= cfg.maxDepth && url !in st.visited ==>
      && url in r.state.visited
      && |r.state.navigations| > |st.navigations|
      && r.state.navigations[|st.navigations|] == Visit(url, depth)
    decreases Budget(cfg, depth), 1
  {
    if depth > cfg.maxDepth || url in st.visited then
      Step(0, st)
    else
      var st1 := Loaded(st, url, depth);
      match site.fetch(url)
      case None => Step(0, st1)
      case Some(page) =>
        if IsListing(url) then
          var links := ScrapeLinks(site, cfg, v, url, LinkTargets(page.groups), depth, st1);
          assert links.state.navigations[..|st1.navigations|] == st1.navigations;
          assert links.state.records[..|st.records|] == st.records;
          Step(if links.raised then 0 else links.count, links.state)
        else
          match page.contentText
          case None => Step(0, st1)
          case Some(text) => Step(1, st1.(records := st.records + [ContentRecord(url, page, text)]))
  }

  /** The loop over the links of the listing page `pageUrl`, which was
      loaded at `depth`. A link whose resolution raises aborts the loop as
      written and is passed over when corrected; a resolved link is scraped
      one level deeper when it is valid and not yet visited. */
  function ScrapeLinks(site: Site, cfg: Config, v: Variant, pageUrl: string, hrefs: seq<string>, depth: int, st: CrawlState): (r: LinkStep)
    requires depth <= cfg.maxDepth
    ensures Grows(st, r.state)
    decreases Budget(cfg, depth), 0, |hrefs|
  {
    if hrefs == [] then LinkStep(0, st, false)
    else
      match site.join(pageUrl, hrefs[0])
      case None =>
        if v == AsWritten then LinkStep(0, st, true)
        else ScrapeLinks(site, cfg, v, pageUrl, hrefs[1..], depth, st)
      case Some(full) =>
        var child := FollowLink(site, cfg, v, full, depth, st);
        var rest := ScrapeLinks(site, cfg, v, pageUrl, hrefs[1..], depth, child.state);
        assert rest.state.navigations[..|st.navigations|] == st.navigations;
        assert rest.state.records[..|st.records|] == st.records;
        LinkStep(child.count + rest.count, rest.state, rest.raised)
  }

  /** One resolved link of a listing page loaded at `depth`: scraped one
      level deeper when `is_valid_url` admits it and it is not yet visited,
      passed over otherwise. */
  function FollowLink(site: Site, cfg: Config, v: Variant, full: string, depth: int, st: CrawlState): (r: Step)
    requires depth <= cfg.maxDepth
    ensures Grows(st, r.state)
    ensures !IsValidUrl(site, cfg, full) || full in st.visited ==> r == Step(0, st)
    ensures IsValidUrl(site, cfg, full) && depth < cfg.maxDepth ==> full in r.state.visited
    decreases Budget(cfg, depth), 0, 0
  {
    if IsValidUrl(site, cfg, full) && full !in st.visited
    then ScrapePage(site, cfg, v, full, depth + 1, st)
    else Step(0, st)
  }

  /** What one `scrape_page` call guarantees about the loads and records it
      adds: no URL loaded twice, none visited before, none beyond the depth
      bound; every load after the page's own is a valid link target; the
      records are exactly what the loaded pages yield, in load order. With
      `Corrected`, the result is exactly the number of records the call and
      its descendants emitted; as written, it never exceeds it. */
  lemma {:induction false} ScrapePageSound(site: Site, cfg: Config, v: Variant, url: string, depth: int, st: CrawlState)
    ensures var r := ScrapePage(site, cfg, v, url, depth, st);
      && Extends(cfg, st, r.state, depth)
      && Faithful(site, NewRecords(st, r.state))
      && Complete(site, st, r.state)
      && FollowedBelow(site, cfg, r.state.navigations, |st.navigations| + 1, depth)
      && DepthFirst(site, r.state.navigations, |st.navigations|)
      && r.count <= |NewRecords(st, r.state)|
      && (Exact(site, v) ==> r.count == |NewRecords(st, r.state)|)
    decreases Budget(cfg, depth), 1
  {
    ScrapePageComplete(site, cfg, v, url, depth, st);
    ScrapePageDepthFirst(site, cfg, v, url, depth, st);
    if depth > cfg.maxDepth || url in st.visited {
      NoStep(site, cfg, st, depth);
    } else {
      var st1 := Loaded(st, url, depth);
      match site.fetch(url)
      case None =>
        LoadedExtends(site, cfg, st, url, depth);
      case Some(page) =>
        if IsListing(url) {
          var links := ScrapeLinks(site, cfg, v, url, LinkTargets(page.groups), depth, st1);
          ScrapeLinksSafe(site, cfg, v, url, LinkTargets(page.groups), depth, st1);
          ListingStep(site, cfg, st, url, depth, links.state);
        } else {
          match page.contentText
          case None =>
            LoadedExtends(site, cfg, st, url, depth);
          case Some(text) =>
            EmittedExtends(site, cfg, st, url, depth, page, text);
        }
    }
  }

  /** The loads and records of a listing page's link loop: the
      guarantees of `Extends` one level below the page, records that are
      what their pages yield, and the count; when corrected, the loop never
      raises. */
  lemma {:induction false} ScrapeLinksSafe(site: Site, cfg: Config, v: Variant, pageUrl: string, hrefs: seq<string>, depth: int, st: CrawlState)
    requires depth <= cfg.maxDepth
    ensures var r := ScrapeLinks(site, cfg, v, pageUrl, hrefs, depth, st);
      && Extends(cfg, st, r.state, depth + 1)
      && Faithful(site, NewRecords(st, r.state))
      && r.count <= |NewRecords(st, r.state)|
      && (Exact(site, v) ==> !r.raised && r.count == |NewRecords(st, r.state)|)
    decreases Budget(cfg, depth), 0, |hrefs|
  {
    if hrefs == [] {
      NoStep(site, cfg, st, depth + 1);
    } else {
      match site.join(pageUrl, hrefs[0])
      case None =>
        if v == AsWritten {
          NoStep(site, cfg, st, depth + 1);
        } else {
          ScrapeLinksSafe(site, cfg, v, pageUrl, hrefs[1..], depth, st);
        }
      case Some(full) =>
        var child := FollowLink(site, cfg, v, full, depth, st);
        FollowLinkSafe(site, cfg, v, full, depth, st);
        ScrapeLinksSafe(site, cfg, v, pageUrl, hrefs[1..], depth, child.state);
        var rest := ScrapeLinks(site, cfg, v, pageUrl, hrefs[1..], depth, child.state);
        StepsCompose(site, cfg, st, child.state, rest.state, depth + 1);
    }
  }

  /** The guarantees of `ScrapeLinksSafe` for one resolved link. */
  lemma {:induction false} FollowLinkSafe(site: Site, cfg: Config, v: Variant, full: string, depth: int, st: CrawlState)
    requires depth <= cfg.maxDepth
    ensures var r := FollowLink(site, cfg, v, full, depth, st);
      && Extends(cfg, st, r.state, depth + 1)
      && Faithful(site, NewRecords(st, r.state))
      && r.count <= |NewRecords(st, r.state)|
      && (Exact(site, v) ==> r.count == |NewRecords(st, r.state)|)
    decreases Budget(cfg, depth), 0, 0
  {
    if IsValidUrl(site, cfg, full) && full !in st.visited {
      ScrapePageSound(site, cfg, v, full, depth + 1, st);
    } else {
      NoStep(site, cfg, st, depth + 1);
    }
  }

  /** The same guarantees for the link loop of a listing page, at one level
      below the page; when corrected, the loop never raises. One level
      below the page it loads only URLs it resolved, in document order, and
      within the depth bound every resolved valid URL ends up visited. */
  lemma ScrapeLinksSound(site: Site, cfg: Config, v: Variant, pageUrl: string, hrefs: seq<string>, depth: int, st: CrawlState)
    requires depth <= cfg.maxDepth
    ensures var r := ScrapeLinks(site, cfg, v, pageUrl, hrefs, depth, st);
      && Extends(cfg, st, r.state, depth + 1)
      && Faithful(site, NewRecords(st, r.state))
      && r.count <= |NewRecords(st, r.state)|
      && (Exact(site, v) ==> !r.raised && r.count == |NewRecords(st, r.state)|)
    ensures var r := ScrapeLinks(site, cfg, v, pageUrl, hrefs, depth, st);
      && Complete(site, st, r.state)
      && FollowedBelow(site, cfg, r.state.navigations, |st.navigations|, depth)
    ensures var r := ScrapeLinks(site, cfg, v, pageUrl, hrefs, depth, st);
      && IsSubsequence(UrlsAt(NewLoads(st, r.state), depth + 1), Resolved(site, v, pageUrl, hrefs))
      && LinksDepthFirst(site, pageUrl, hrefs, depth, r.state.navigations, |st.navigations|)
    ensures depth < cfg.maxDepth ==>
      forall u :: u in Resolved(site, v, pageUrl, hrefs) && IsValidUrl(site, cfg, u) ==>
        u in ScrapeLinks(site, cfg, v, pageUrl, hrefs, depth, st).state.visited
  {
    ScrapeLinksSafe(site, cfg, v, pageUrl, hrefs, depth, st);
    ScrapeLinksComplete(site, cfg, v, pageUrl, hrefs, depth, st);
    LinksFollowDocumentOrder(site, cfg, v, pageUrl, hrefs, depth, st);
    ScrapeLinksDepthFirst(site, cfg, v, pageUrl, hrefs, depth, st);
    if depth < cfg.maxDepth {
      LinksVisitResolved(site, cfg, v, pageUrl, hrefs, depth, st);
    }
  }

  /** Where no link resolution raises, the crawl as written and the
      corrected crawl are the same crawl, count included: the two differ
      only in what follows a raising `urljoin`. */
  lemma {:induction false} PageAgrees(site: Site, cfg: Config, url: string, depth: int, st: CrawlState)
    requires JoinTotal(site)
    ensures ScrapePage(site, cfg, AsWritten, url, depth, st) == ScrapePage(site, cfg, Corrected, url, depth, st)
    decreases Budget(cfg, depth), 1
  {
    if depth <= cfg.maxDepth && url !in st.visited {
      match site.fetch(url)
      case None =>
      case Some(page) =>
        if IsListing(url) {
          LinksAgree(site, cfg, url, LinkTargets(page.groups), depth, Loaded(st, url, depth));
        }
    }
  }

  /** The same for the link loop of a listing page: neither variant
      raises, and both load, emit and count alike. */
  lemma {:induction false} LinksAgree(site: Site, cfg: Config, pageUrl: string, hrefs: seq<string>, depth: int, st: CrawlState)
    requires JoinTotal(site) && depth <= cfg.maxDepth
    ensures ScrapeLinks(site, cfg, AsWritten, pageUrl, hrefs, depth, st) == ScrapeLinks(site, cfg, Corrected, pageUrl, hrefs, depth, st)
    decreases Budget(cfg, depth), 0, |hrefs|
  {
    if hrefs != [] {
      assert site.join(pageUrl, hrefs[0]).Some?;
      var full := site.join(pageUrl, hrefs[0]).value;
      FollowAgrees(site, cfg, full, depth, st);
      LinksAgree(site, cfg, pageUrl, hrefs[1..], depth, FollowLink(site, cfg, AsWritten, full, depth, st).state);
    }
  }

  /** The same for one resolved link. */
  lemma {:induction false} FollowAgrees(site: Site, cfg: Config, full: string, depth: int, st: CrawlState)
    requires JoinTotal(site) && depth <= cfg.maxDepth
    ensures FollowLink(site, cfg, AsWritten, full, depth, st) == FollowLink(site, cfg, Corrected, full, depth, st)
    decreases Budget(cfg, depth), 0, 0
  {
    if IsValidUrl(site, cfg, full) && full !in st.visited {
      PageAgrees(site, cfg, full, depth + 1, st);
    }
  }

  // -----------------------------------------------------------------------
  // What a crawl emits, and which links it follows
  // -----------------------------------------------------------------------

  /** The loads `b` made after `a`, in order. */
  function NewLoads(a: CrawlState, b: CrawlState): seq<Visit>
    requires |a.navigations| <= |b.navigations|
  {
    b.navigations[|a.navigations|..]
  }

  /** The records `b` adds to `a` are exactly what the pages loaded in
      between yield, in load order: every loaded content page with a
      content div contributes its record, and nothing else is emitted. */
  ghost predicate Complete(site: Site, a: CrawlState, b: CrawlState) {
    && |a.navigations| <= |b.navigations|
    && |a.records| <= |b.records|
    && NewRecords(a, b) == Yields(site, Urls(NewLoads(a, b)))
  }

  /** The loads of `navs` from position `from` on were all made deeper than
      `depth`, at URLs that `is_valid_url` admits. */
  ghost predicate FollowedBelow(site: Site, cfg: Config, navs: seq<Visit>, from: nat, depth: int) {
    forall i :: from <= i < |navs| ==> depth < navs[i].depth && IsValidUrl(site, cfg, navs[i].url)
  }

  /** A load that yields no record adds nothing to emit. */
  lemma LoadedComplete(site: Site, st: CrawlState, url: string, depth: int)
    requires Extracted(site, url).None?
    ensures Complete(site, st, Loaded(st, url, depth))
  {
    var st1 := Loaded(st, url, depth);
    assert NewLoads(st, st1) == [Visit(url, depth)];
    assert Urls([Visit(url, depth)]) == [url];
    assert NewRecords(st, st1) == [];
    assert [url][1..] == [];
  }

  /** A content page's load adds exactly its own record. */
  lemma EmittedComplete(site: Site, st: CrawlState, url: string, depth: int, rec: RawRecord)
    requires Extracted(site, url) == Some(rec)
    ensures Complete(site, st, Loaded(st, url, depth).(records := st.records + [rec]))
  {
    var st2 := Loaded(st, url, depth).(records := st.records + [rec]);
    assert NewLoads(st, st2) == [Visit(url, depth)];
    assert Urls([Visit(url, depth)]) == [url];
    assert NewRecords(st, st2) == [rec];
    assert [url][1..] == [];
  }

  /** Completeness of two consecutive steps carries over to the two
      together. */
  lemma CompleteCompose(site: Site, a: CrawlState, b: CrawlState, c: CrawlState)
    requires Grows(a, b) && Grows(b, c)
    requires Complete(site, a, b) && Complete(site, b, c)
    ensures Grows(a, c) && Complete(site, a, c)
  {
    GrowsSplit(a, b, c);
    UrlsConcat(NewLoads(a, b), NewLoads(b, c));
    YieldsConcat(site, Urls(NewLoads(a, b)), Urls(NewLoads(b, c)));
  }

  /** Two growth steps make one, whose new loads and new records are
      those of the first step followed by those of the second. */
  lemma GrowsSplit(a: CrawlState, b: CrawlState, c: CrawlState)
    requires Grows(a, b) && Grows(b, c)
    ensures Grows(a, c)
    ensures NewLoads(a, c) == NewLoads(a, b) + NewLoads(b, c)
    ensures NewRecords(a, c) == NewRecords(a, b) + NewRecords(b, c)
  {
    SuffixSplit(a.navigations, b.navigations, c.navigations);
    SuffixSplit(a.records, b.records, c.records);
  }

  /** The URLs of two batches of loads are those of each, in turn. */
  lemma UrlsConcat(n1: seq<Visit>, n2: seq<Visit>)
    ensures Urls(n1 + n2) == Urls(n1) + Urls(n2)
  {
  }

  /** Loads followed below `depth` up to the end of `n1`, and from there on
      in a longer log, make the whole longer log followed below `depth`. */
  lemma FollowedBelowJoin(site: Site, cfg: Config, n1: seq<Visit>, n2: seq<Visit>, from: nat, depth: int)
    requires |n1| <= |n2| && n2[..|n1|] == n1
    requires FollowedBelow(site, cfg, n1, from, depth) && FollowedBelow(site, cfg, n2, |n1|, depth)
    ensures FollowedBelow(site, cfg, n2, from, depth)
  {
    forall i | from <= i < |n1|
      ensures n2[i] == n1[i]
    {
      assert n2[..|n1|][i] == n2[i];
    }
  }

  /** Every record a `scrape_page` call emits is what its page yields, and
      every page it loads that yields a record contributes it, in load
      order. Every load after the page's own is a link target that
      `is_valid_url` admitted, made deeper than the page. */
  lemma {:induction false} ScrapePageComplete(site: Site, cfg: Config, v: Variant, url: string, depth: int, st: CrawlState)
    ensures var r := ScrapePage(site, cfg, v, url, depth, st);
      && Complete(site, st, r.state)
      && FollowedBelow(site, cfg, r.state.navigations, |st.navigations| + 1, depth)
    decreases Budget(cfg, depth), 1
  {
    if depth > cfg.maxDepth || url in st.visited {
      assert NewLoads(st, st) == [] && NewRecords(st, st) == [];
    } else {
      var st1 := Loaded(st, url, depth);
      match site.fetch(url)
      case None =>
        LoadedComplete(site, st, url, depth);
      case Some(page) =>
        if IsListing(url) {
          LoadedComplete(site, st, url, depth);
          var links := ScrapeLinks(site, cfg, v, url, LinkTargets(page.groups), depth, st1);
          ScrapeLinksComplete(site, cfg, v, url, LinkTargets(page.groups), depth, st1);
          CompleteCompose(site, st, st1, links.state);
        } else {
          match page.contentText
          case None =>
            LoadedComplete(site, st, url, depth);
          case Some(text) =>
            EmittedComplete(site, st, url, depth, ContentRecord(url, page, text));
        }
    }
  }

  /** The same for the link loop of a listing page: what it emits is what
      the pages it loads yield, and every page it loads is a valid link
      target, loaded below the listing page. */
  lemma {:induction false} ScrapeLinksComplete(site: Site, cfg: Config, v: Variant, pageUrl: string, hrefs: seq<string>, depth: int, st: CrawlState)
    requires depth <= cfg.maxDepth
    ensures var r := ScrapeLinks(site, cfg, v, pageUrl, hrefs, depth, st);
      && Complete(site, st, r.state)
      && FollowedBelow(site, cfg, r.state.navigations, |st.navigations|, depth)
    decreases Budget(cfg, depth), 0, |hrefs|
  {
    if hrefs == [] || (site.join(pageUrl, hrefs[0]).None? && v == AsWritten) {
      assert NewLoads(st, st) == [] && NewRecords(st, st) == [];
    } else if site.join(pageUrl, hrefs[0]).None? {
      ScrapeLinksComplete(site, cfg, v, pageUrl, hrefs[1..], depth, st);
    } else {
      var full := site.join(pageUrl, hrefs[0]).value;
      var child := FollowLink(site, cfg, v, full, depth, st);
      FollowLinkComplete(site, cfg, v, full, depth, st);
      ScrapeLinksComplete(site, cfg, v, pageUrl, hrefs[1..], depth, child.state);
      var rest := ScrapeLinks(site, cfg, v, pageUrl, hrefs[1..], depth, child.state);
      CompleteCompose(site, st, child.state, rest.state);
      FollowedBelowJoin(site, cfg, child.state.navigations, rest.state.navigations, |st.navigations|, depth);
    }
  }

  /** The guarantees of `ScrapeLinksComplete` for one resolved link. */
  lemma {:induction false} FollowLinkComplete(site: Site, cfg: Config, v: Variant, full: string, depth: int, st: CrawlState)
    requires depth <= cfg.maxDepth
    ensures var r := FollowLink(site, cfg, v, full, depth, st);
      && Complete(site, st, r.state)
      && FollowedBelow(site, cfg, r.state.navigations, |st.navigations|, depth)
    decreases Budget(cfg, depth), 0, 0
  {
    var r := FollowLink(site, cfg, v, full, depth, st);
    if IsValidUrl(site, cfg, full) && full !in st.visited && depth < cfg.maxDepth {
      ScrapePageComplete(site, cfg, v, full, depth + 1, st);
      assert r.state.navigations[|st.navigations|] == Visit(full, depth + 1);
    } else {
      assert r.state == st;
      assert NewLoads(st, st) == [] && NewRecords(st, st) == [];
    }
  }

  /** The URLs loaded at exactly `depth`, in load order. */
  function UrlsAt(navs: seq<Visit>, depth: int): (r: seq<string>)
    ensures |r| <= |navs|
    ensures forall u :: u in r <==> Visit(u, depth) in navs
    decreases |navs|
  {
    if navs == [] then []
    else
      var rest := UrlsAt(navs[1..], depth);
      assert forall x :: x in navs <==> x == navs[0] || x in navs[1..];
      if navs[0].depth == depth then [navs[0].url] + rest else rest
  }

  /** The loads at one depth of two batches are those of each, in turn. */
  lemma {:induction false} UrlsAtConcat(n1: seq<Visit>, n2: seq<Visit>, depth: int)
    ensures UrlsAt(n1 + n2, depth) == UrlsAt(n1, depth) + UrlsAt(n2, depth)
    decreases |n1|
  {
    if n1 == [] {
      assert n1 + n2 == n2;
    } else {
      var n := n1 + n2;
      assert n[0] == n1[0];
      assert n[1..] == n1[1..] + n2;
      UrlsAtConcat(n1[1..], n2, depth);
      var head := if n1[0].depth == depth then [n1[0].url] else [];
      calc {
        UrlsAt(n, depth);
        head + UrlsAt(n1[1..] + n2, depth);
        head + (UrlsAt(n1[1..], depth) + UrlsAt(n2, depth));
        (head + UrlsAt(n1[1..], depth)) + UrlsAt(n2, depth);
      }
    }
  }

  /** The URLs a listing page's loop resolves, in document order. As
      written the loop stops at the first link whose resolution raises;
      corrected, it passes over it. */
  function Resolved(site: Site, v: Variant, pageUrl: string, hrefs: seq<string>): (r: seq<string>)
    ensures |r| <= |hrefs|
    ensures forall u :: u in r ==> exists k :: 0 <= k < |hrefs| && site.join(pageUrl, hrefs[k]) == Some(u)
    ensures v == Corrected ==> forall k :: 0 <= k < |hrefs| && site.join(pageUrl, hrefs[k]).Some? ==> site.join(pageUrl, hrefs[k]).value in r
    decreases |hrefs|
  {
    if hrefs == [] then []
    else
      var rest := Resolved(site, v, pageUrl, hrefs[1..]);
      assert forall k :: 1 <= k < |hrefs| ==> hrefs[k] == hrefs[1..][k - 1];
      match site.join(pageUrl, hrefs[0])
      case None => if v == AsWritten then [] else rest
      case Some(full) => [full] + rest
  }

  /** A page scraped at `depth` adds only its own URL to the loads made at
      that depth: everything below it is deeper. */
  lemma PageLoadsAt(site: Site, cfg: Config, v: Variant, url: string, depth: int, st: CrawlState)
    requires depth <= cfg.maxDepth && url !in st.visited
    ensures var r := ScrapePage(site, cfg, v, url, depth, st);
      UrlsAt(NewLoads(st, r.state), depth) == [url]
  {
    var r := ScrapePage(site, cfg, v, url, depth, st);
    ScrapePageComplete(site, cfg, v, url, depth, st);
    var n := NewLoads(st, r.state);
    assert n[0] == Visit(url, depth);
    assert forall i :: 0 <= i < |n[1..]| ==> n[1..][i] == r.state.navigations[|st.navigations| + 1 + i];
    NoLoadsAt(n[1..], depth);
  }

  /** Loads made at other depths contribute nothing at `depth`. */
  lemma {:induction false} NoLoadsAt(navs: seq<Visit>, depth: int)
    requires forall i :: 0 <= i < |navs| ==> navs[i].depth != depth
    ensures UrlsAt(navs, depth) == []
    decreases |navs|
  {
    if navs != [] {
      assert forall i :: 0 <= i < |navs[1..]| ==> navs[1..][i] == navs[i + 1];
      NoLoadsAt(navs[1..], depth);
    }
  }

  /** One resolved link adds at most its own URL to the loads one level
      below the listing page. */
  lemma FollowLinkLoadsAt(site: Site, cfg: Config, v: Variant, full: string, depth: int, st: CrawlState)
    requires depth <= cfg.maxDepth
    ensures var r := FollowLink(site, cfg, v, full, depth, st);
      var here := UrlsAt(NewLoads(st, r.state), depth + 1);
      here == [] || here == [full]
  {
    var r := FollowLink(site, cfg, v, full, depth, st);
    if IsValidUrl(site, cfg, full) && full !in st.visited && depth < cfg.maxDepth {
      PageLoadsAt(site, cfg, v, full, depth + 1, st);
    } else {
      assert NewLoads(st, r.state) == [];
    }
  }

  /** The link loop of a listing page loads, one level below the page, only
      URLs it resolved, in document order. */
  lemma {:induction false} LinksFollowDocumentOrder(site: Site, cfg: Config, v: Variant, pageUrl: string, hrefs: seq<string>, depth: int, st: CrawlState)
    requires depth <= cfg.maxDepth
    ensures var r := ScrapeLinks(site, cfg, v, pageUrl, hrefs, depth, st);
      IsSubsequence(UrlsAt(NewLoads(st, r.state), depth + 1), Resolved(site, v, pageUrl, hrefs))
    decreases |hrefs|
  {
    var r := ScrapeLinks(site, cfg, v, pageUrl, hrefs, depth, st);
    if hrefs == [] || (site.join(pageUrl, hrefs[0]).None? && v == AsWritten) {
      assert NewLoads(st, r.state) == [];
    } else if site.join(pageUrl, hrefs[0]).None? {
      LinksFollowDocumentOrder(site, cfg, v, pageUrl, hrefs[1..], depth, st);
    } else {
      var full := site.join(pageUrl, hrefs[0]).value;
      var child := FollowLink(site, cfg, v, full, depth, st);
      var rest := ScrapeLinks(site, cfg, v, pageUrl, hrefs[1..], depth, child.state);
      assert r.state == rest.state;
      LinksFollowDocumentOrder(site, cfg, v, pageUrl, hrefs[1..], depth, child.state);
      FollowLinkLoadsAt(site, cfg, v, full, depth, st);
      var here := UrlsAt(NewLoads(st, child.state), depth + 1);
      var tail := UrlsAt(NewLoads(child.state, rest.state), depth + 1);
      var others := Resolved(site, v, pageUrl, hrefs[1..]);
      assert Resolved(site, v, pageUrl, hrefs) == [full] + others;
      SuffixSplit(st.navigations, child.state.navigations, rest.state.navigations);
      assert NewLoads(st, rest.state) == NewLoads(st, child.state) + NewLoads(child.state, rest.state);
      UrlsAtConcat(NewLoads(st, child.state), NewLoads(child.state, rest.state), depth + 1);
      if here == [full] {
        SubsequenceReflexive([full]);
        SubsequenceConcat([full], [full], tail, others);
      } else {
        assert here + tail == tail;
        SubsequenceOfLonger(tail, [full], others);
      }
    }
  }

  /** When the level below a listing page is within the depth bound, every
      URL its link loop resolved that `is_valid_url` admits is visited once
      the loop is over. */
  lemma {:induction false} LinksVisitResolved(site: Site, cfg: Config, v: Variant, pageUrl: string, hrefs: seq<string>, depth: int, st: CrawlState)
    requires depth < cfg.maxDepth
    ensures var r := ScrapeLinks(site, cfg, v, pageUrl, hrefs, depth, st);
      forall u :: u in Resolved(site, v, pageUrl, hrefs) && IsValidUrl(site, cfg, u) ==> u in r.state.visited
    decreases |hrefs|
  {
    if hrefs != [] {
      match site.join(pageUrl, hrefs[0])
      case None =>
        if v == Corrected {
          LinksVisitResolved(site, cfg, v, pageUrl, hrefs[1..], depth, st);
        }
      case Some(full) =>
        var child := FollowLink(site, cfg, v, full, depth, st);
        LinksVisitResolved(site, cfg, v, pageUrl, hrefs[1..], depth, child.state);
        assert Resolved(site, v, pageUrl, hrefs) == [full] + Resolved(site, v, pageUrl, hrefs[1..]);
    }
  }

  /** A listing page loads, one level below itself, only the URLs its
      category links resolve to, in document order; within the depth bound
      every such URL that `is_valid_url` admits ends up visited. */
  lemma ListingFollowsItsLinks(site: Site, cfg: Config, v: Variant, url: string, depth: int, st: CrawlState, page: Page)
    requires depth <= cfg.maxDepth && url !in st.visited
    requires IsListing(url) && site.fetch(url) == Some(page)
    ensures var r := ScrapePage(site, cfg, v, url, depth, st);
      var targets := Resolved(site, v, url, LinkTargets(page.groups));
      && IsSubsequence(UrlsAt(NewLoads(st, r.state), depth + 1), targets)
      && (depth < cfg.maxDepth ==> forall u :: u in targets && IsValidUrl(site, cfg, u) ==> u in r.state.visited)
  {
    var st1 := Loaded(st, url, depth);
    var links := ScrapeLinks(site, cfg, v, url, LinkTargets(page.groups), depth, st1);
    ListingPageUnfolds(site, cfg, v, url, depth, st, page);
    LinksFollowDocumentOrder(site, cfg, v, url, LinkTargets(page.groups), depth, st1);
    if depth < cfg.maxDepth {
      LinksVisitResolved(site, cfg, v, url, LinkTargets(page.groups), depth, st1);
    }
    var r := ScrapePage(site, cfg, v, url, depth, st);
    SuffixSplit(st.navigations, st1.navigations, links.state.navigations);
    assert NewLoads(st, r.state) == [Visit(url, depth)] + NewLoads(st1, links.state);
    UrlsAtConcat([Visit(url, depth)], NewLoads(st1, links.state), depth + 1);
    assert UrlsAt([Visit(url, depth)], depth + 1) == [];
  }

  // -----------------------------------------------------------------------
  // Depth-first order
  // -----------------------------------------------------------------------

  /** `u` is what `urljoin(pageUrl, h)` gives for some link target `h`. */
  ghost predicate ResolvesTo(site: Site, pageUrl: string, hrefs: seq<string>, u: string) {
    exists h :: h in hrefs && site.join(pageUrl, h) == Some(u)
  }

  /** Load `j` of `navs` is the listing page whose link load `i` followed:
      it is one level up, it loaded, and one of its category links
      resolves to the URL of load `i`; every load in between is at least
      as deep as load `i`, so it belongs to an earlier sibling's subtree. */
  ghost predicate ParentOf(site: Site, navs: seq<Visit>, j: int, i: int) {
    && 0 <= j < i < |navs|
    && navs[j].depth + 1 == navs[i].depth
    && IsListing(navs[j].url)
    && site.fetch(navs[j].url).Some?
    && ResolvesTo(site, navs[j].url, LinkTargets(site.fetch(navs[j].url).value.groups), navs[i].url)
    && forall k :: j < k < i ==> navs[i].depth <= navs[k].depth
  }

  /** Load `i` has its parent among the loads from `from` on. */
  ghost predicate HasParent(site: Site, navs: seq<Visit>, from: int, i: int) {
    exists j :: from <= j < i && ParentOf(site, navs, j, i)
  }

  /** The loads after position `from` are a depth-first, pre-order walk
      from the load at `from`: each one directly follows its parent or the
      last load of an earlier sibling's subtree. */
  ghost predicate DepthFirst(site: Site, navs: seq<Visit>, from: int) {
    forall i :: from < i < |navs| ==> HasParent(site, navs, from, i)
  }

  /** The loads from position `from` on, made by the link loop of the
      listing page `pageUrl` at `depth`: each is one of the page's resolved
      links one level below it, or has its parent among these loads. */
  ghost predicate LinksDepthFirst(site: Site, pageUrl: string, hrefs: seq<string>, depth: int, navs: seq<Visit>, from: int) {
    forall i :: 0 <= from <= i < |navs| ==>
      || (navs[i].depth == depth + 1 && ResolvesTo(site, pageUrl, hrefs, navs[i].url))
      || HasParent(site, navs, from, i)
  }

  /** A parent found in a log stays the parent in any longer log. */
  lemma HasParentLift(site: Site, n1: seq<Visit>, n2: seq<Visit>, from: int, i: int)
    requires |n1| <= |n2| && n2[..|n1|] == n1
    requires HasParent(site, n1, from, i)
    ensures HasParent(site, n2, from, i)
  {
    var j :| from <= j < i && ParentOf(site, n1, j, i);
    assert forall k :: 0 <= k < |n1| ==> n2[k] == n1[k] by {
      forall k | 0 <= k < |n1| ensures n2[k] == n1[k] {
        assert n2[..|n1|][k] == n2[k];
      }
    }
    assert ParentOf(site, n2, j, i);
  }

  /** A `scrape_page` call loads depth-first: every load after the page's
      own follows a link of its parent, and the parent's subtree is
      finished before any later sibling is loaded. */
  lemma {:induction false} ScrapePageDepthFirst(site: Site, cfg: Config, v: Variant, url: string, depth: int, st: CrawlState)
    ensures var r := ScrapePage(site, cfg, v, url, depth, st);
      DepthFirst(site, r.state.navigations, |st.navigations|)
    decreases Budget(cfg, depth), 1
  {
    if depth <= cfg.maxDepth && url !in st.visited {
      match site.fetch(url)
      case None =>
      case Some(page) =>
        if IsListing(url) {
          var st1 := Loaded(st, url, depth);
          var links := ScrapeLinks(site, cfg, v, url, LinkTargets(page.groups), depth, st1);
          ScrapeLinksDepthFirst(site, cfg, v, url, LinkTargets(page.groups), depth, st1);
          ScrapeLinksComplete(site, cfg, v, url, LinkTargets(page.groups), depth, st1);
          var navs := links.state.navigations;
          assert |st1.navigations| == |st.navigations| + 1;
          assert navs[|st.navigations|] == Visit(url, depth) by {
            assert navs[..|st1.navigations|][|st.navigations|] == navs[|st.navigations|];
          }
          ListingDepthFirst(site, cfg, url, depth, page, navs, |st.navigations|);
        }
    }
  }

  /** A listing page loaded at position `p`, followed by a depth-first
      loop over its links, all deeper than the page, is a depth-first walk
      from the page. */
  lemma ListingDepthFirst(site: Site, cfg: Config, url: string, depth: int, page: Page, navs: seq<Visit>, p: nat)
    requires p < |navs| && navs[p] == Visit(url, depth)
    requires IsListing(url) && site.fetch(url) == Some(page)
    requires LinksDepthFirst(site, url, LinkTargets(page.groups), depth, navs, p + 1)
    requires FollowedBelow(site, cfg, navs, p + 1, depth)
    ensures DepthFirst(site, navs, p)
  {
    forall i | p < i < |navs|
      ensures HasParent(site, navs, p, i)
    {
      if !HasParent(site, navs, p + 1, i) {
        assert ParentOf(site, navs, p, i);
      } else {
        var j :| p + 1 <= j < i && ParentOf(site, navs, j, i);
      }
    }
  }

  /** The link loop of a listing page loads depth-first: each load is a
      resolved link of the page one level below it, or follows a link of
      its parent among the loop's own loads. */
  lemma {:induction false} ScrapeLinksDepthFirst(site: Site, cfg: Config, v: Variant, pageUrl: string, hrefs: seq<string>, depth: int, st: CrawlState)
    requires depth <= cfg.maxDepth
    ensures var r := ScrapeLinks(site, cfg, v, pageUrl, hrefs, depth, st);
      LinksDepthFirst(site, pageUrl, hrefs, depth, r.state.navigations, |st.navigations|)
    decreases Budget(cfg, depth), 0, |hrefs|
  {
    if hrefs == [] || (site.join(pageUrl, hrefs[0]).None? && v == AsWritten) {
    } else if site.join(pageUrl, hrefs[0]).None? {
      ScrapeLinksDepthFirst(site, cfg, v, pageUrl, hrefs[1..], depth, st);
      LinksDepthFirstWiden(site, pageUrl, hrefs, depth, ScrapeLinks(site, cfg, v, pageUrl, hrefs[1..], depth, st).state.navigations, |st.navigations|);
    } else {
      var full := site.join(pageUrl, hrefs[0]).value;
      var child := FollowLink(site, cfg, v, full, depth, st);
      var rest := ScrapeLinks(site, cfg, v, pageUrl, hrefs[1..], depth, child.state);
      FollowLinkDepthFirst(site, cfg, v, full, depth, st);
      assert var r := FollowLink(site, cfg, v, full, depth, st);
      forall i :: |st.navigations| <= i < |r.state.navigations| ==>
        || r.state.navigations[i] == Visit(full, depth + 1)
        || HasParent(site, r.state.navigations, |st.navigations|, i);
      ScrapeLinksDepthFirst(site, cfg, v, pageUrl, hrefs[1..], depth, child.state);
      LinksDepthFirstWiden(site, pageUrl, hrefs, depth, rest.state.navigations, |child.state.navigations|);
      LinksDepthFirstJoin(site, pageUrl, hrefs, depth, full, child.state.navigations, rest.state.navigations, |st.navigations|);
    }
  }

  /** The loads of one followed link: the link's own URL one level below
      the listing page, then loads whose parents are among them. */
  lemma {:induction false} FollowLinkDepthFirst(site: Site, cfg: Config, v: Variant, full: string, depth: int, st: CrawlState)
    requires depth <= cfg.maxDepth
    ensures var r := FollowLink(site, cfg, v, full, depth, st);
      forall i :: |st.navigations| <= i < |r.state.navigations| ==>
        || r.state.navigations[i] == Visit(full, depth + 1)
        || HasParent(site, r.state.navigations, |st.navigations|, i)
    decreases Budget(cfg, depth), 0, 0
  {
    if IsValidUrl(site, cfg, full) && full !in st.visited {
      ScrapePageDepthFirst(site, cfg, v, full, depth + 1, st);
    }
  }

  /** The loads of a loop over the later links also satisfy the loop over
      all of them. */
  lemma LinksDepthFirstWiden(site: Site, pageUrl: string, hrefs: seq<string>, depth: int, navs: seq<Visit>, from: int)
    requires hrefs != []
    requires LinksDepthFirst(site, pageUrl, hrefs[1..], depth, navs, from)
    ensures LinksDepthFirst(site, pageUrl, hrefs, depth, navs, from)
  {
    forall u | ResolvesTo(site, pageUrl, hrefs[1..], u)
      ensures ResolvesTo(site, pageUrl, hrefs, u)
    {
      var h :| h in hrefs[1..] && site.join(pageUrl, h) == Some(u);
      assert h in hrefs;
    }
  }

  /** The loads of the first resolved link followed by those of the rest
      of the loop make a depth-first loop over all the links. */
  lemma LinksDepthFirstJoin(site: Site, pageUrl: string, hrefs: seq<string>, depth: int, full: string, n1: seq<Visit>, n2: seq<Visit>, from: int)
    requires hrefs != [] && site.join(pageUrl, hrefs[0]) == Some(full)
    requires 0 <= from <= |n1| <= |n2| && n2[..|n1|] == n1
    requires forall i :: from <= i < |n1| ==> n1[i] == Visit(full, depth + 1) || HasParent(site, n1, from, i)
    requires LinksDepthFirst(site, pageUrl, hrefs, depth, n2, |n1|)
    ensures LinksDepthFirst(site, pageUrl, hrefs, depth, n2, from)
  {
    assert ResolvesTo(site, pageUrl, hrefs, full) by {
      assert hrefs[0] in hrefs;
    }
    forall i | from <= i < |n2|
      ensures || (n2[i].depth == depth + 1 && ResolvesTo(site, pageUrl, hrefs, n2[i].url))
              || HasParent(site, n2, from, i)
    {
      if i < |n1| {
        assert n2[i] == n1[i] by {
          assert n2[..|n1|][i] == n2[i];
        }
        if n1[i] != Visit(full, depth + 1) {
          HasParentLift(site, n1, n2, from, i);
        }
      } else if HasParent(site, n2, |n1|, i) {
        var j :| |n1| <= j < i && ParentOf(site, n2, j, i);
        assert from <= j;
      }
    }
  }

  /** Breadth-first order is not depth-first: after a listing page at
      depth 0, loading its links `c1` and `c2` and only then `g1`, a link
      of `c1`, is no depth-first walk when `c2` is a content page, since
      `c2` sits between `g1` and its only possible parent. */
  lemma BreadthFirstOrderExcluded(site: Site, l: string, c1: string, c2: string, g1: string)
    requires !IsListing(c2)
    ensures !DepthFirst(site, [Visit(l, 0), Visit(c1, 1), Visit(c2, 1), Visit(g1, 2)], 0)
  {
    var navs := [Visit(l, 0), Visit(c1, 1), Visit(c2, 1), Visit(g1, 2)];
    forall j | 0 <= j < 3
      ensures !ParentOf(site, navs, j, 3)
    {
      if j == 1 {
        assert navs[2].depth < navs[3].depth;
      }
    }
    assert !HasParent(site, navs, 0, 3);
  }

  // -----------------------------------------------------------------------
  // What single pages contribute
  // -----------------------------------------------------------------------

  /** A load that fails emits nothing and returns 0, but the URL stays
      visited, so it is never tried again. */
  lemma FailedLoadEmitsNothing(site: Site, cfg: Config, v: Variant, url: string, depth: int, st: CrawlState)
    requires depth <= cfg.maxDepth && url !in st.visited
    requires site.fetch(url).None?
    ensures var r := ScrapePage(site, cfg, v, url, depth, st);
      && r.count == 0
      && r.state.records == st.records
      && r.state.visited == st.visited + {url}
      && r.state.navigations == st.navigations + [Visit(url, depth)]
  {
  }

  /** A content page emits exactly one record when it has a content div and
      none otherwise; the record carries the page title, or the URL when the
      page has no title, and the stripped content text. */
  lemma ContentPageEmitsOwnRecord(site: Site, cfg: Config, v: Variant, url: string, depth: int, st: CrawlState, page: Page)
    requires depth <= cfg.maxDepth && url !in st.visited
    requires !IsListing(url) && site.fetch(url) == Some(page)
    ensures var r := ScrapePage(site, cfg, v, url, depth, st);
      && (page.contentText.None? ==> r.count == 0 && r.state.records == st.records)
      && (page.contentText.Some? ==>
            && r.count == 1
            && r.state.records == st.records + [RawRecord(page.title.GetOr(url), url, Text.Strip(page.contentText.value))])
      && r.state.visited == st.visited + {url}
  {
  }

  /** A listing page never emits a record of its own: every record emitted
      while it is scraped belongs to some page below it. */
  lemma ListingEmitsNoOwnRecord(site: Site, cfg: Config, v: Variant, url: string, depth: int, st: CrawlState)
    requires IsListing(url)
    ensures var r := ScrapePage(site, cfg, v, url, depth, st);
      forall rec :: rec in NewRecords(st, r.state) ==> rec.url != url
  {
    var r := ScrapePage(site, cfg, v, url, depth, st);
    ScrapePageSound(site, cfg, v, url, depth, st);
    forall rec | rec in NewRecords(st, r.state) ensures rec.url != url {
      var i :| 0 <= i < |NewRecords(st, r.state)| && NewRecords(st, r.state)[i] == rec;
      assert Extracted(site, rec.url) == Some(rec);
    }
  }

  /** How a listing page is scraped once it has loaded. */
  lemma ListingPageUnfolds(site: Site, cfg: Config, v: Variant, url: string, depth: int, st: CrawlState, page: Page)
    requires depth <= cfg.maxDepth && url !in st.visited
    requires IsListing(url) && site.fetch(url) == Some(page)
    ensures var links := ScrapeLinks(site, cfg, v, url, LinkTargets(page.groups), depth, Loaded(st, url, depth));
      ScrapePage(site, cfg, v, url, depth, st) == Step(if links.raised then 0 else links.count, links.state)
  {
  }

  /** How a link that resolves to a valid, unvisited URL is followed. */
  lemma FollowedLinkUnfolds(site: Site, cfg: Config, v: Variant, pageUrl: string, hrefs: seq<string>, depth: int, st: CrawlState, full: string)
    requires depth <= cfg.maxDepth && hrefs != []
    requires site.join(pageUrl, hrefs[0]) == Some(full) && IsValidUrl(site, cfg, full) && full !in st.visited
    ensures var child := ScrapePage(site, cfg, v, full, depth + 1, st);
      var rest := ScrapeLinks(site, cfg, v, pageUrl, hrefs[1..], depth, child.state);
      ScrapeLinks(site, cfg, v, pageUrl, hrefs, depth, st) == LinkStep(child.count + rest.count, rest.state, rest.raised)
  {
  }

  /** A listing page whose two links both resolve to valid URLs: the first
      link's page is scraped, then the second's, one level down. */
  lemma TwoLinkListingUnfolds(
    site: Site, cfg: Config, v: Variant, listing: string, depth: int, st: CrawlState,
    listingPage: Page, hrefA: string, hrefB: string, a: string, b: string)
    requires depth < cfg.maxDepth && listing !in st.visited
    requires IsListing(listing) && site.fetch(listing) == Some(listingPage)
    requires LinkTargets(listingPage.groups) == [hrefA, hrefB]
    requires site.join(listing, hrefA) == Some(a) && site.join(listing, hrefB) == Some(b)
    requires IsValidUrl(site, cfg, a) && IsValidUrl(site, cfg, b)
    requires a !in Loaded(st, listing, depth).visited
    requires b !in ScrapePage(site, cfg, v, a, depth + 1, Loaded(st, listing, depth)).state.visited
    ensures var sa := ScrapePage(site, cfg, v, a, depth + 1, Loaded(st, listing, depth));
      var sb := ScrapePage(site, cfg, v, b, depth + 1, sa.state);
      ScrapePage(site, cfg, v, listing, depth, st) == Step(sa.count + sb.count, sb.state)
  {
    var st1 := Loaded(st, listing, depth);
    var hrefs := [hrefA, hrefB];
    var sa := ScrapePage(site, cfg, v, a, depth + 1, st1);
    ListingPageUnfolds(site, cfg, v, listing, depth, st, listingPage);
    FollowedLinkUnfolds(site, cfg, v, listing, hrefs, depth, st1, a);
    FollowedLinkUnfolds(site, cfg, v, listing, hrefs[1..], depth, sa.state, b);
    assert hrefs[1..][1..] == [];
  }

  /** Two content pages scraped one after the other emit their records in
      that order. */
  lemma ContentPagesInOrder(
    site: Site, cfg: Config, v: Variant, a: string, b: string, depth: int, st: CrawlState,
    pageA: Page, pageB: Page)
    requires depth <= cfg.maxDepth
    requires a !in st.visited && b !in st.visited && a != b
    requires !IsListing(a) && !IsListing(b)
    requires site.fetch(a) == Some(pageA) && pageA.contentText.Some?
    requires site.fetch(b) == Some(pageB) && pageB.contentText.Some?
    ensures var sa := ScrapePage(site, cfg, v, a, depth, st);
      var sb := ScrapePage(site, cfg, v, b, depth, sa.state);
      && b !in sa.state.visited
      && sa.count + sb.count == 2
      && sb.state.records == st.records + [ContentRecord(a, pageA, pageA.contentText.value), ContentRecord(b, pageB, pageB.contentText.value)]
  {
    ContentPageEmitsOwnRecord(site, cfg, v, a, depth, st, pageA);
    var sa := ScrapePage(site, cfg, v, a, depth, st);
    ContentPageEmitsOwnRecord(site, cfg, v, b, depth, sa.state, pageB);
  }

  /** The example of a listing page with two content links A and B: A's
      record is emitted before B's, and the call reports both. */
  lemma LinksScrapedInDocumentOrder(
    site: Site, cfg: Config, v: Variant, listing: string, depth: int, st: CrawlState,
    listingPage: Page, hrefA: string, hrefB: string, a: string, b: string,
    pageA: Page, pageB: Page)
    requires 0 <= depth < cfg.maxDepth
    requires listing !in st.visited && a !in st.visited && b !in st.visited && a != b
    requires IsListing(listing) && !IsListing(a) && !IsListing(b)
    requires site.fetch(listing) == Some(listingPage) && LinkTargets(listingPage.groups) == [hrefA, hrefB]
    requires site.join(listing, hrefA) == Some(a) && site.join(listing, hrefB) == Some(b)
    requires IsValidUrl(site, cfg, a) && IsValidUrl(site, cfg, b)
    requires site.fetch(a) == Some(pageA) && pageA.contentText.Some?
    requires site.fetch(b) == Some(pageB) && pageB.contentText.Some?
    ensures var r := ScrapePage(site, cfg, v, listing, depth, st);
      && r.count == 2
      && r.state.records == st.records + [ContentRecord(a, pageA, pageA.contentText.value), ContentRecord(b, pageB, pageB.contentText.value)]
  {
    var st1 := Loaded(st, listing, depth);
    ContentPagesInOrder(site, cfg, v, a, b, depth + 1, st1, pageA, pageB);
    TwoLinkListingUnfolds(site, cfg, v, listing, depth, st, listingPage, hrefA, hrefB, a, b);
  }

  /** A load that fails for one link does not keep the next link of the same
      listing page from being scraped. */
  lemma FailedSiblingDoesNotStopListing(
    site: Site, cfg: Config, v: Variant, listing: string, depth: int, st: CrawlState,
    listingPage: Page, hrefA: string, hrefB: string, a: string, b: string, pageB: Page)
    requires 0 <= depth < cfg.maxDepth
    requires listing !in st.visited && a !in st.visited && b !in st.visited && a != b
    requires IsListing(listing) && !IsListing(b)
    requires site.fetch(listing) == Some(listingPage) && LinkTargets(listingPage.groups) == [hrefA, hrefB]
    requires site.join(listing, hrefA) == Some(a) && site.join(listing, hrefB) == Some(b)
    requires IsValidUrl(site, cfg, a) && IsValidUrl(site, cfg, b)
    requires site.fetch(a).None?
    requires site.fetch(b) == Some(pageB) && pageB.contentText.Some?
    ensures var r := ScrapePage(site, cfg, v, listing, depth, st);
      && r.count == 1
      && NewRecords(st, r.state) == [ContentRecord(b, pageB, pageB.contentText.value)]
      && a in r.state.visited
  {
    var st1 := Loaded(st, listing, depth);
    FailedLoadEmitsNothing(site, cfg, v, a, depth + 1, st1);
    var sa := ScrapePage(site, cfg, v, a, depth + 1, st1);
    ContentPageEmitsOwnRecord(site, cfg, v, b, depth + 1, sa.state, pageB);
    TwoLinkListingUnfolds(site, cfg, v, listing, depth, st, listingPage, hrefA, hrefB, a, b);
  }

  /** A link whose resolution raises, after a link whose page was scraped:
      as written the listing page reports 0 although the earlier link's
      record was already appended; corrected, the failing link is passed
      over and the record is counted. */
  lemma RaisingLinkAfterRecord(
    site: Site, cfg: Config, v: Variant, listing: string, depth: int, st: CrawlState,
    listingPage: Page, hrefA: string, hrefB: string, a: string, pageA: Page)
    requires 0 <= depth < cfg.maxDepth
    requires listing !in st.visited && a !in st.visited && a != listing
    requires IsListing(listing) && !IsListing(a)
    requires site.fetch(listing) == Some(listingPage) && LinkTargets(listingPage.groups) == [hrefA, hrefB]
    requires site.join(listing, hrefA) == Some(a) && IsValidUrl(site, cfg, a)
    requires site.fetch(a) == Some(pageA) && pageA.contentText.Some?
    requires site.join(listing, hrefB).None?
    ensures var r := ScrapePage(site, cfg, v, listing, depth, st);
      && r.state.records == st.records + [ContentRecord(a, pageA, pageA.contentText.value)]
      && r.count == (if v == AsWritten then 0 else 1)
  {
    var st1 := Loaded(st, listing, depth);
    var hrefs := [hrefA, hrefB];
    ContentPageEmitsOwnRecord(site, cfg, v, a, depth + 1, st1, pageA);
    ListingPageUnfolds(site, cfg, v, listing, depth, st, listingPage);
    FollowedLinkUnfolds(site, cfg, v, listing, hrefs, depth, st1, a);
    assert hrefs[1..][1..] == [];
  }

  /** A site on which the miscount happens: a listing page whose second link
      cannot be resolved. */
  function MiscountSite(): Site {
    Site(
      u => if u == "http://w/Category:X" then Some(Page([[Anchor(Some("a")), Anchor(Some("http://[x"))]], None, None))
           else if u == "http://w/a" then Some(Page([], Some("A"), Some(" a "))) else None,
      (base, href) => if href == "a" then Some("http://w/a") else None,
      u => "w")
  }

  /** How the crawler classifies the URLs of `MiscountSite`. */
  lemma MiscountSiteUrls(site: Site, cfg: Config)
    requires site == MiscountSite() && cfg == Config(["w"], 1, ["http://w/Category:X"])
    ensures IsListing("http://w/Category:X") && !IsListing("http://w/a")
    ensures IsValidUrl(site, cfg, "http://w/a")
  {
    assert Text.OccursAt("http://w/Category:X", ListingMarker, 9);
    assert Text.OccursAt("http://w/a", "w", 7);
    Text.AbsentFirstChar("http://w/a", ListingMarker);
  }

  /** What the pages of `MiscountSite` offer. */
  lemma MiscountSitePages(site: Site)
    requires site == MiscountSite()
    ensures site.fetch("http://w/Category:X").Some?
    ensures LinkTargets(site.fetch("http://w/Category:X").value.groups) == ["a", "http://[x"]
    ensures site.join("http://w/Category:X", "a") == Some("http://w/a")
    ensures site.join("http://w/Category:X", "http://[x").None?
    ensures site.fetch("http://w/a").Some? && site.fetch("http://w/a").value.contentText.Some?
  {
    assert AnchorTargets([Anchor(Some("http://[x"))]) == ["http://[x"];
  }

  /** The concrete counterexample: one record reaches the raw file, yet the
      crawl as written reports that it found none. */
  lemma ListingMiscountExample(site: Site, cfg: Config, v: Variant)
    requires site == MiscountSite() && cfg == Config(["w"], 1, ["http://w/Category:X"])
    ensures var r := ScrapePage(site, cfg, v, "http://w/Category:X", 0, Initial);
      && |r.state.records| == 1
      && r.count == (if v == AsWritten then 0 else 1)
  {
    MiscountSiteUrls(site, cfg);
    MiscountSitePages(site);
    var listing := "http://w/Category:X";
    var content := "http://w/a";
    RaisingLinkAfterRecord(site, cfg, v, listing, 0, Initial, site.fetch(listing).value, "a", "http://[x", content, site.fetch(content).value);
  }

  // -----------------------------------------------------------------------
  // The full run
  // -----------------------------------------------------------------------

  /** The records as the raw file holds them, in order. */
  function Serialized(serialize: RawRecord -> string, recs: seq<RawRecord>): (r: seq<string>)
    ensures |r| == |recs|
    ensures forall i :: 0 <= i < |recs| ==> r[i] == serialize(recs[i])
  {
    seq(|recs|, i requires 0 <= i < |recs| => serialize(recs[i]))
  }

  /** Serialising a concatenation serialises each part in turn. */
  lemma SerializedConcat(serialize: RawRecord -> string, a: seq<RawRecord>, b: seq<RawRecord>)
    ensures Serialized(serialize, a + b) == Serialized(serialize, a) + Serialized(serialize, b)
  {
    var lhs := Serialized(serialize, a + b);
    var rhs := Serialized(serialize, a) + Serialized(serialize, b);
    assert |lhs| == |rhs|;
    forall i | 0 <= i < |lhs|
      ensures lhs[i] == rhs[i]
    {
      if i < |a| {
        assert (a + b)[i] == a[i];
      } else {
        assert (a + b)[i] == b[i - |a|];
      }
    }
  }

  /** One start URL of the run: scraping it at depth 0 keeps the run's
      guarantees and appends the page's records to the run's records. */
  lemma StartUrlStep(site: Site, cfg: Config, v: Variant, url: string, st: CrawlState)
    requires Extends(cfg, Initial, st, 0) && Faithful(site, st.records)
    ensures var step := ScrapePage(site, cfg, v, url, 0, st);
      && Extends(cfg, Initial, step.state, 0)
      && Faithful(site, step.state.records)
      && |st.records| <= |step.state.records|
      && step.state.records == st.records + NewRecords(st, step.state)
      && step.count <= |NewRecords(st, step.state)|
      && (Exact(site, v) ==> step.count == |NewRecords(st, step.state)|)
  {
    var step := ScrapePage(site, cfg, v, url, 0, st);
    ScrapePageSound(site, cfg, v, url, 0, st);
    ExtendsTransitive(cfg, Initial, st, step.state, 0);
    var emitted := NewRecords(st, step.state);
    PrefixThenRest(st.records, step.state.records);
    forall i | 0 <= i < |step.state.records|
      ensures Extracted(site, step.state.records[i].url) == Some(step.state.records[i])
    {
      if i >= |st.records| {
        assert step.state.records[i] == emitted[i - |st.records|];
      }
    }
  }

  /** Every load of a run is either a start URL loaded at depth 0 or a URL
      that `is_valid_url` admitted, loaded deeper. */
  ghost predicate RunLoads(site: Site, cfg: Config, navs: seq<Visit>) {
    forall i :: 0 <= i < |navs| ==>
      || (navs[i].depth == 0 && navs[i].url in cfg.startUrls)
      || (navs[i].depth > 0 && IsValidUrl(site, cfg, navs[i].url))
  }

  /** Scraping one more start URL keeps every load of the run a start URL
      or a valid link target. */
  lemma StartUrlLoads(site: Site, cfg: Config, v: Variant, url: string, st: CrawlState)
    requires url in cfg.startUrls && RunLoads(site, cfg, st.navigations)
    ensures RunLoads(site, cfg, ScrapePage(site, cfg, v, url, 0, st).state.navigations)
  {
    var r := ScrapePage(site, cfg, v, url, 0, st);
    ScrapePageComplete(site, cfg, v, url, 0, st);
    forall i | 0 <= i < |st.navigations|
      ensures r.state.navigations[i] == st.navigations[i]
    {
      assert r.state.navigations[..|st.navigations|][i] == r.state.navigations[i];
    }
  }

  /** The start URLs `urls` scraped one after another at depth 0 from
      `st`, sharing one visited set: the counts summed and the final state.
      Within the depth bound, every start URL ends up visited. */
  function CrawlFrom(site: Site, cfg: Config, v: Variant, urls: seq<string>, st: CrawlState): (r: Step)
    ensures Grows(st, r.state)
    ensures cfg.maxDepth >= 0 ==> forall u :: u in urls ==> u in r.state.visited
    decreases |urls|
  {
    if urls == [] then Step(0, st)
    else
      var s := ScrapePage(site, cfg, v, urls[0], 0, st);
      var rest := CrawlFrom(site, cfg, v, urls[1..], s.state);
      assert forall u :: u in urls ==> u == urls[0] || u in urls[1..];
      assert rest.state.navigations[..|st.navigations|] == st.navigations;
      assert rest.state.records[..|st.records|] == st.records;
      Step(s.count + rest.count, rest.state)
  }

  /** The fold from position `i` on: the start URL there first, then the
      rest. */
  lemma CrawlFromUnfold(site: Site, cfg: Config, v: Variant, urls: seq<string>, i: nat, st: CrawlState)
    requires i < |urls|
    ensures var s := ScrapePage(site, cfg, v, urls[i], 0, st);
      var rest := CrawlFrom(site, cfg, v, urls[i + 1..], s.state);
      CrawlFrom(site, cfg, v, urls[i..], st) == Step(s.count + rest.count, rest.state)
  {
    assert urls[i..][0] == urls[i];
    assert urls[i..][1..] == urls[i + 1..];
  }

  /** The run's guarantees survive scraping further start URLs: no URL is
      loaded twice or beyond the depth bound, every load is a start URL or
      a valid link target, and the records are exactly what the loaded
      pages yield, in load order. The summed count never exceeds the new
      records; corrected, it equals them. */
  lemma {:induction false} CrawlFromSound(site: Site, cfg: Config, v: Variant, urls: seq<string>, st: CrawlState)
    requires forall u :: u in urls ==> u in cfg.startUrls
    requires Extends(cfg, Initial, st, 0) && Faithful(site, st.records)
    requires Complete(site, Initial, st) && RunLoads(site, cfg, st.navigations)
    ensures var r := CrawlFrom(site, cfg, v, urls, st);
      && Extends(cfg, Initial, r.state, 0)
      && Faithful(site, r.state.records)
      && Complete(site, Initial, r.state)
      && RunLoads(site, cfg, r.state.navigations)
      && r.count <= |NewRecords(st, r.state)|
      && (Exact(site, v) ==> r.count == |NewRecords(st, r.state)|)
    decreases |urls|
  {
    if urls == [] {
      assert NewRecords(st, st) == [];
    } else {
      var s := ScrapePage(site, cfg, v, urls[0], 0, st);
      StartUrlStep(site, cfg, v, urls[0], st);
      ScrapePageComplete(site, cfg, v, urls[0], 0, st);
      CompleteCompose(site, Initial, st, s.state);
      StartUrlLoads(site, cfg, v, urls[0], st);
      assert forall u :: u in urls[1..] ==> u in urls;
      CrawlFromSound(site, cfg, v, urls[1..], s.state);
      var r := CrawlFrom(site, cfg, v, urls[1..], s.state);
      NewRecordsConcat(st, s.state, r.state);
    }
  }

  /** What a run's state guarantees once every start URL was scraped. */
  lemma RunGuarantees(cfg: Config, st: CrawlState)
    requires Extends(cfg, Initial, st, 0)
    ensures NoDup(Urls(st.navigations))
    ensures forall i :: 0 <= i < |st.navigations| ==> 0 <= st.navigations[i].depth <= cfg.maxDepth
    ensures st.visited == UrlSet(st.navigations)
    ensures NoDup(RecordUrls(st.records))
  {
    assert st.navigations[|Initial.navigations|..] == st.navigations;
    assert st.records[|Initial.records|..] == st.records;
    SubsequenceNoDup(RecordUrls(st.records), Urls(st.navigations));
  }

  /** What a finished run guarantees about its final state and its summed
      count: no URL loaded twice, every load within `0..max_depth` and
      either a start URL at depth 0 or a valid link target deeper down,
      the visited set exactly the loaded URLs, the records exactly what the
      loaded pages yield in load order (so no two share a URL), and a count
      that never exceeds the records and, corrected, equals them. */
  ghost predicate SoundRun(site: Site, cfg: Config, v: Variant, st: CrawlState, total: nat) {
    && Extends(cfg, Initial, st, 0)
    && NoDup(Urls(st.navigations))
    && (forall i :: 0 <= i < |st.navigations| ==> 0 <= st.navigations[i].depth <= cfg.maxDepth)
    && RunLoads(site, cfg, st.navigations)
    && st.visited == UrlSet(st.navigations)
    && st.records == Yields(site, Urls(st.navigations))
    && Faithful(site, st.records)
    && NoDup(RecordUrls(st.records))
    && total <= |st.records|
    && (Exact(site, v) ==> total == |st.records|)
  }

  /** A whole run from a fresh scraper, the fold of `scrape_page` over the
      start URLs, keeps every guarantee of `SoundRun`. */
  lemma RunSound(site: Site, cfg: Config, v: Variant)
    ensures var r := CrawlFrom(site, cfg, v, cfg.startUrls, Initial);
      SoundRun(site, cfg, v, r.state, r.count)
  {
    ExtendsReflexive(cfg, Initial, 0);
    assert Initial.records[0..] == [] && Initial.navigations[0..] == [];
    CrawlFromSound(site, cfg, v, cfg.startUrls, Initial);
    var r := CrawlFrom(site, cfg, v, cfg.startUrls, Initial);
    RunGuarantees(cfg, r.state);
    assert NewRecords(Initial, r.state) == r.state.records && NewLoads(Initial, r.state) == r.state.navigations;
  }

  /** Appending the records one crawl step emits to the raw file of the
      records before it gives the raw file of all of them. */
  lemma RawFileStep(serialize: RawRecord -> string, a: CrawlState, b: CrawlState)
    requires Grows(a, b)
    ensures JsonArray.AppendAll(JsonArray.AppendAll(JsonArray.Create(), Serialized(serialize, a.records)), Serialized(serialize, NewRecords(a, b)))
         == JsonArray.AppendAll(JsonArray.Create(), Serialized(serialize, b.records))
  {
    PrefixThenRest(a.records, b.records);
    SerializedConcat(serialize, a.records, NewRecords(a, b));
    JsonArray.AppendAllConcat(JsonArray.Create(), Serialized(serialize, a.records), Serialized(serialize, NewRecords(a, b)));
  }

  /** The same for the corrected writer. */
  lemma WriterStep(serialize: RawRecord -> string, w: JsonArray.ArrayWriter, a: CrawlState, b: CrawlState)
    requires Grows(a, b) && JsonArray.Holds(w, Serialized(serialize, a.records))
    ensures JsonArray.Holds(JsonArray.WriteAll(w, Serialized(serialize, NewRecords(a, b))), Serialized(serialize, b.records))
  {
    PrefixThenRest(a.records, b.records);
    SerializedConcat(serialize, a.records, NewRecords(a, b));
  }

  /** The loop of `scrape_wiki` over the start URLs: each is scraped at
      depth 0 in configuration order, sharing one visited set, its count
      added to the total and its records appended to the raw file as they
      are emitted. The state and total are those of the fold `CrawlFrom`;
      the raw file as written holds every record's serialisation appended
      in turn, and the corrected writer holds the open array of them. */
  method CrawlStartUrls(site: Site, cfg: Config, v: Variant, serialize: RawRecord -> string)
    returns (total: nat, st: CrawlState, raw: string, writer: JsonArray.ArrayWriter)
    ensures Step(total, st) == CrawlFrom(site, cfg, v, cfg.startUrls, Initial)
    ensures v == AsWritten ==> raw == JsonArray.AppendAll(JsonArray.Create(), Serialized(serialize, st.records))
    ensures v == Corrected ==> JsonArray.Holds(writer, Serialized(serialize, st.records))
  {
    st := Initial;
    total := 0;
    raw := JsonArray.Create();
    writer := JsonArray.Open();
    for i := 0 to |cfg.startUrls|
      invariant var rest := CrawlFrom(site, cfg, v, cfg.startUrls[i..], st);
        CrawlFrom(site, cfg, v, cfg.startUrls, Initial) == Step(total + rest.count, rest.state)
      invariant v == AsWritten ==> raw == JsonArray.AppendAll(JsonArray.Create(), Serialized(serialize, st.records))
      invariant v == Corrected ==> JsonArray.Holds(writer, Serialized(serialize, st.records))
    {
      var step := ScrapePage(site, cfg, v, cfg.startUrls[i], 0, st);
      CrawlFromUnfold(site, cfg, v, cfg.startUrls, i, st);
      var emitted := Serialized(serialize, NewRecords(st, step.state));
      if v == AsWritten {
        RawFileStep(serialize, st, step.state);
        raw := JsonArray.AppendAll(raw, emitted);
      } else {
        WriterStep(serialize, writer, st, step.state);
        writer := JsonArray.WriteAll(writer, emitted);
      }
      total := total + step.count;
      st := step.state;
    }
    assert cfg.startUrls[|cfg.startUrls|..] == [];
  }

  /** `scrape_wiki`: scrape every start URL at depth 0 in configuration
      order, sharing one visited set, sum the counts and finalise the raw
      file. The run is the fold `CrawlFrom` over the start URLs. Across the
      whole run no URL is loaded twice, none beyond the depth bound, every
      load is a start URL or a valid link target, and the records are
      exactly what the loaded pages yield, so no two share a URL. With
      `Corrected`, the total is the number of records and the file is the
      framed array of their serialisations, even when there are none; as
      written, the file is framed only when at least one record was emitted
      and is "\n]" otherwise. */
  method ScrapeWiki(site: Site, cfg: Config, v: Variant, serialize: RawRecord -> string) returns (report: CrawlReport)
    ensures report.state == CrawlFrom(site, cfg, v, cfg.startUrls, Initial).state
    ensures report.total == CrawlFrom(site, cfg, v, cfg.startUrls, Initial).count
    ensures cfg.maxDepth >= 0 ==> forall u :: u in cfg.startUrls ==> u in report.state.visited
    ensures SoundRun(site, cfg, v, report.state, report.total)
    ensures v == Corrected ==> report.file == JsonArray.Framed(Serialized(serialize, report.state.records))
    ensures v == AsWritten && report.state.records != [] ==>
      report.file == JsonArray.Framed(Serialized(serialize, report.state.records))
    ensures v == AsWritten && report.state.records == [] ==> report.file == JsonArray.Closing
  {
    var total, st, raw, writer := CrawlStartUrls(site, cfg, v, serialize);
    RunSound(site, cfg, v);
    var items := Serialized(serialize, st.records);
    var file;
    if v == AsWritten {
      file := JsonArray.Finalize(raw);
      if items != [] {
        JsonArray.FinalizeFramesItems(items);
      }
    } else {
      file := JsonArray.Close(writer);
    }
    report := CrawlReport(total, st, file);
  }
}

=== FILE: seqs.dfy ===
/** Generic sequence facts: order-preserving subsequences, duplicate freedom
    and filtering. */
module Seqs {

  /** `a` can be obtained from `b` by deleting elements, keeping the order of
      the rest. */
  predicate IsSubsequence<T(==)>(a: seq<T>, b: seq<T>)
    decreases |b|
  {
    if a == [] then true
    else if b == [] then false
    else (a[0] == b[0] && IsSubsequence(a[1..], b[1..])) || IsSubsequence(a, b[1..])
  }

  /** No element occurs twice. */
  predicate NoDup<T(==)>(s: seq<T>) {
    forall i, j :: 0 <= i < j < |s| ==> s[i] != s[j]
  }

  /** Every element of a subsequence occurs in the whole. */
  lemma {:induction false} SubsequenceMembers<T>(a: seq<T>, b: seq<T>)
    requires IsSubsequence(a, b)
    ensures forall x :: x in a ==> x in b
    decreases |b|
  {
    if a != [] {
      if a[0] == b[0] && IsSubsequence(a[1..], b[1..]) {
        SubsequenceMembers(a[1..], b[1..]);
        assert a == [a[0]] + a[1..];
        assert b == [b[0]] + b[1..];
      } else {
        SubsequenceMembers(a, b[1..]);
        assert b == [b[0]] + b[1..];
      }
    }
  }

  /** Anything is a subsequence of itself. */
  lemma {:induction false} SubsequenceReflexive<T>(a: seq<T>)
    ensures IsSubsequence(a, a)
    decreases |a|
  {
    if a != [] {
      SubsequenceReflexive(a[1..]);
    }
  }

  /** Extra elements in front of the whole keep a subsequence a subsequence. */
  lemma {:induction false} SubsequenceOfLonger<T>(a: seq<T>, c: seq<T>, b: seq<T>)
    requires IsSubsequence(a, b)
    ensures IsSubsequence(a, c + b)
    decreases |c|
  {
    if c != [] && a != [] {
      SubsequenceOfLonger(a, c[1..], b);
      assert (c + b)[1..] == c[1..] + b;
      assert IsSubsequence(a, (c + b)[1..]);
    } else if c == [] {
      assert c + b == b;
    }
  }

  /** Subsequences of two wholes concatenate to a subsequence of their
      concatenation. */
  lemma {:induction false} SubsequenceConcat<T>(a1: seq<T>, b1: seq<T>, a2: seq<T>, b2: seq<T>)
    requires IsSubsequence(a1, b1) && IsSubsequence(a2, b2)
    ensures IsSubsequence(a1 + a2, b1 + b2)
    decreases |b1|
  {
    if a1 == [] {
      assert a1 + a2 == a2;
      SubsequenceOfLonger(a2, b1, b2);
    } else if a1[0] == b1[0] && IsSubsequence(a1[1..], b1[1..]) {
      SubsequenceConcat(a1[1..], b1[1..], a2, b2);
      assert (a1 + a2)[1..] == a1[1..] + a2;
      assert (b1 + b2)[1..] == b1[1..] + b2;
    } else {
      SubsequenceConcat(a1, b1[1..], a2, b2);
      assert (b1 + b2)[1..] == b1[1..] + b2;
    }
  }

  /** A subsequence of a duplicate-free sequence is duplicate-free. */
  lemma {:induction false} SubsequenceNoDup<T>(a: seq<T>, b: seq<T>)
    requires IsSubsequence(a, b) && NoDup(b)
    ensures NoDup(a)
    decreases |b|
  {
    if a != [] {
      assert NoDup(b[1..]);
      if a[0] == b[0] && IsSubsequence(a[1..], b[1..]) {
        SubsequenceNoDup(a[1..], b[1..]);
        SubsequenceMembers(a[1..], b[1..]);
        forall i, j | 0 <= i < j < |a|
          ensures a[i] != a[j]
        {
          if i == 0 {
            assert a[j] == a[1..][j - 1];
            assert a[j] in b[1..];
          } else {
            assert a[i] == a[1..][i - 1] && a[j] == a[1..][j - 1];
          }
        }
      } else {
        SubsequenceNoDup(a, b[1..]);
      }
    }
  }

  /** The elements of `s` that satisfy `p`, in their original order
      (`FilterIsSubsequence` states the order). */
  function Filter<T>(p: T -> bool, s: seq<T>): (r: seq<T>)
    ensures |r| <= |s|
    ensures forall x :: x in r ==> x in s && p(x)
    ensures forall x :: x in s && p(x) ==> x in r
    decreases |s|
  {
    if s == [] then []
    else if p(s[0]) then
      assert s == [s[0]] + s[1..];
      [s[0]] + Filter(p, s[1..])
    else
      assert s == [s[0]] + s[1..];
      Filter(p, s[1..])
  }

  /** Filtering keeps the kept elements in their original order. */
  lemma {:induction false} FilterIsSubsequence<T>(p: T -> bool, s: seq<T>)
    ensures IsSubsequence(Filter(p, s), s)
    decreases |s|
  {
    if s != [] {
      FilterIsSubsequence(p, s[1..]);
      var r := Filter(p, s);
      if p(s[0]) {
        assert r[0] == s[0] && r[1..] == Filter(p, s[1..]);
      } else if r != [] {
        assert r == Filter(p, s[1..]);
      }
    }
  }

  /** How many elements of `s` satisfy `p`. */
  function CountIf<T>(p: T -> bool, s: seq<T>): nat
    decreases |s|
  {
    if s == [] then 0 else (if p(s[0]) then 1 else 0) + CountIf(p, s[1..])
  }

  /** Filtering keeps exactly the elements that are counted. */
  lemma {:induction false} FilterLength<T>(p: T -> bool, s: seq<T>)
    ensures |Filter(p, s)| == CountIf(p, s)
    decreases |s|
  {
    if s != [] {
      FilterLength(p, s[1..]);
    }
  }
}

=== FILE: sorter.dfy ===
/** The record transformer of data-tools/data-sorter.py
    (`DataSorter.process_wiki_data`): every raw entry with a title and
    non-blank content becomes one instruction record, in input order, and
    the records are written one per line.

    `json.load` is replaced by an already-parsed `InputFile`, and
    `json.dumps` by an opaque `serialize` function. */
module Sorter {
  import opened Wrappers
  import opened Seqs
  import opened Variants
  import Text

  // -----------------------------------------------------------------------
  // Data model
  // -----------------------------------------------------------------------

  /** A JSON value found under a key of a raw entry: a string, or any other
      value, carried with the text Python's `str()` gives it (which is what
      an f-string inserts). */
  datatype Value = Str(s: string) | Other(rendered: string)

  /** One element of the raw array: an object, or anything else (an array,
      a string, a number, a boolean or null). */
  datatype Entry = Object(fields: map<string, Value>) | NonObject

  /** One line of `arma_commands.jsonl`. */
  datatype Processed = Processed(instruction: string, input: string, output: string)

  /** `raw_wiki_data.json` as the script finds it: absent, not parseable as
      JSON, or a parsed top-level array. */
  datatype InputFile = Missing | Unparsable | Parsed(entries: seq<Entry>)

  /** The exception that makes `process_wiki_data` re-raise. */
  datatype Fatal = InputNotFound | ParseError | HandlerRaised

  /** What the loop body does with one entry: append a record, pass over
      the entry (the `continue` and the two `except` handlers), or let an
      exception escape the loop. */
  datatype Outcome = Kept(record: Processed) | Skipped | Raised

  /** The text every instruction starts with; the entry's title follows. */
  const InstructionPrefix: string := "Explain the Arma command: "

  // -----------------------------------------------------------------------
  // One entry
  // -----------------------------------------------------------------------

  /** The text an f-string inserts for a value. */
  function Rendered(v: Value): string {
    match v
    case Str(s) => s
    case Other(t) => t
  }

  /** The entries that should become records: objects with a `title` and a
      string `content` that is not entirely whitespace, which is exactly
      when stripping the content leaves something. */
  function Eligible(e: Entry): (r: bool)
    ensures r <==>
      && e.Object? && "title" in e.fields && "content" in e.fields
      && e.fields["content"].Str? && Text.Strip(e.fields["content"].s) != []
  {
    && e.Object?
    && "title" in e.fields
    && "content" in e.fields
    && e.fields["content"].Str?
    && !Text.AllSpace(e.fields["content"].s)
  }

  /** The record an eligible entry becomes: the instruction names the
      title after the fixed prefix, the input is empty, and the output is
      the content with the surrounding whitespace removed, never empty. */
  function Transform(e: Entry): (r: Processed)
    requires Eligible(e)
    ensures |InstructionPrefix| <= |r.instruction|
    ensures r.instruction[..|InstructionPrefix|] == InstructionPrefix
    ensures r.instruction[|InstructionPrefix|..] == Rendered(e.fields["title"])
    ensures r.input == []
    ensures r.output != [] && Text.Trimmed(r.output) && |r.output| <= |e.fields["content"].s|
  {
    Processed(InstructionPrefix + Rendered(e.fields["title"]), "", Text.Strip(e.fields["content"].s))
  }

  /** The body of the `for entry in data` loop.
      - A missing `content` raises `KeyError`: passed over.
      - A `content` that is not a string has no `strip`, so an
        `AttributeError` reaches the generic handler, which calls
        `entry.get` on the object and passes over the entry.
      - Blank content is passed over by `continue`; the warning it logs
        reads `title`, and a `KeyError` there is passed over as well.
      - A missing `title` while building the record: passed over.
      - An entry that is not an object makes `entry['content']` raise
        `TypeError`; the generic handler then calls `entry.get`, which does
        not exist on a non-object, and that second exception escapes the
        loop as written. Corrected, the entry is passed over. */
  function HandleEntry(v: Variant, e: Entry): (r: Outcome)
    ensures r.Kept? <==> Eligible(e)
    ensures r.Kept? ==> r.record == Transform(e)
    ensures r.Raised? <==> v == AsWritten && e.NonObject?
  {
    match e
    case NonObject => if v == AsWritten then Raised else Skipped
    case Object(fields) =>
      if "content" !in fields then Skipped
      else
        match fields["content"]
        case Other(_) => Skipped
        case Str(c) =>
          var content := Text.Strip(c);
          if content == [] then Skipped
          else if "title" !in fields then Skipped
          else Kept(Processed(InstructionPrefix + Rendered(fields["title"]), "", content))
  }

  // -----------------------------------------------------------------------
  // The batch
  // -----------------------------------------------------------------------

  /** What the batch should produce: the record of every eligible entry,
      in input order. */
  function Expected(entries: seq<Entry>): seq<Processed>
    decreases |entries|
  {
    if entries == [] then []
    else (if Eligible(entries[0]) then [Transform(entries[0])] else []) + Expected(entries[1..])
  }

  /** The expected output of an entry in front of others. */
  lemma ExpectedCons(e: Entry, rest: seq<Entry>)
    ensures Expected([e] + rest) == (if Eligible(e) then [Transform(e)] else []) + Expected(rest)
  {
    assert ([e] + rest)[0] == e;
    assert ([e] + rest)[1..] == rest;
  }

  /** The expected output of a single entry. */
  lemma ExpectedSingle(e: Entry)
    ensures Expected([e]) == (if Eligible(e) then [Transform(e)] else [])
  {
    ExpectedCons(e, []);
    assert [e] + [] == [e];
  }

  /** The expected output of two parts is that of the first part followed
      by that of the second. */
  lemma {:induction false} ExpectedConcat(a: seq<Entry>, b: seq<Entry>)
    ensures Expected(a + b) == Expected(a) + Expected(b)
    decreases |a|
  {
    if a == [] {
      assert a + b == b;
    } else {
      var ab := a + b;
      var head := if Eligible(a[0]) then [Transform(a[0])] else [];
      assert ab[0] == a[0];
      assert ab[1..] == a[1..] + b;
      ExpectedConcat(a[1..], b);
      calc {
        Expected(ab);
        head + Expected(a[1..] + b);
        head + (Expected(a[1..]) + Expected(b));
        (head + Expected(a[1..])) + Expected(b);
      }
    }
  }

  /** Some entry is not an object. */
  predicate HasNonObject(entries: seq<Entry>) {
    exists i :: 0 <= i < |entries| && entries[i].NonObject?
  }

  /** A non-object entry is either the first one or among the rest. */
  lemma HasNonObjectCons(entries: seq<Entry>)
    requires entries != []
    ensures HasNonObject(entries) <==> entries[0].NonObject? || HasNonObject(entries[1..])
  {
    if HasNonObject(entries[1..]) {
      var i :| 0 <= i < |entries[1..]| && entries[1..][i].NonObject?;
      assert entries[i + 1].NonObject?;
    }
    if HasNonObject(entries) && !entries[0].NonObject? {
      var i :| 0 <= i < |entries| && entries[i].NonObject?;
      assert entries[1..][i - 1].NonObject?;
    }
  }

  /** The loop over all entries, processed in order. An entry whose
      handler raises aborts the whole batch; otherwise the collected
      records are exactly the expected ones. */
  function ProcessEntries(v: Variant, entries: seq<Entry>): (r: Result<seq<Processed>, Fatal>)
    ensures r.Failure? <==> v == AsWritten && HasNonObject(entries)
    ensures r.Failure? ==> r.error == HandlerRaised
    ensures r.Success? ==> r.value == Expected(entries)
    decreases |entries|
  {
    if entries == [] then Success([])
    else
      var rest := ProcessEntries(v, entries[1..]);
      HasNonObjectCons(entries);
      match HandleEntry(v, entries[0])
      case Raised => Failure(HandlerRaised)
      case Skipped => rest
      case Kept(p) => if rest.Failure? then rest else Success([p] + rest.value)
  }

  // -----------------------------------------------------------------------
  // The output file
  // -----------------------------------------------------------------------

  /** `arma_commands.jsonl`: each record serialised and followed by a
      newline. */
  function JsonLines(serialize: Processed -> string, items: seq<Processed>): (r: string)
    ensures |r| >= |items|
    ensures r == [] <==> items == []
    ensures items != [] ==> r[|r| - 1] == '\n'
    decreases |items|
  {
    if items == [] then []
    else
      var rest := JsonLines(serialize, items[1..]);
      var r := serialize(items[0]) + "\n" + rest;
      assert rest != [] ==> r[|r| - 1] == rest[|rest| - 1];
      r
  }

  /** The text up to the first newline and the text after it; the whole
      text and nothing when there is no newline. */
  function TakeLine(s: string): (r: (string, string))
    ensures '\n' !in r.0
    ensures '\n' in s ==> s == r.0 + "\n" + r.1
    ensures '\n' !in s ==> r == (s, [])
    decreases |s|
  {
    if s == [] then ([], [])
    else if s[0] == '\n' then
      assert s == [] + "\n" + s[1..];
      ([], s[1..])
    else
      var (line, after) := TakeLine(s[1..]);
      assert s == [s[0]] + s[1..];
      assert '\n' in s <==> '\n' in s[1..];
      ([s[0]] + line, after)
  }

  /** Reading a newline-terminated file back line by line. */
  function SplitLines(s: string): (r: seq<string>)
    ensures forall i :: 0 <= i < |r| ==> '\n' !in r[i]
    decreases |s|
  {
    if s == [] then []
    else
      var (line, after) := TakeLine(s);
      if '\n' in s then
        assert |after| < |s|;
        [line] + SplitLines(after)
      else [line]
  }

  /** The first line of a line followed by the rest. */
  lemma {:induction false} TakeLineOfJoined(line: string, rest: string)
    requires '\n' !in line
    ensures TakeLine(line + "\n" + rest) == (line, rest)
    decreases |line|
  {
    var s := line + "\n" + rest;
    if line == [] {
      assert s == "\n" + rest;
      assert s[1..] == rest;
    } else {
      assert s[0] == line[0];
      assert s[1..] == line[1..] + "\n" + rest;
      TakeLineOfJoined(line[1..], rest);
      assert [line[0]] + line[1..] == line;
    }
  }

  /** Reading the output file back yields the serialised records, one per
      line, as long as no serialisation contains a raw newline (which
      `json.dumps` escapes). */
  lemma {:induction false} JsonLinesRoundTrip(serialize: Processed -> string, items: seq<Processed>)
    requires forall i :: 0 <= i < |items| ==> '\n' !in serialize(items[i])
    ensures |SplitLines(JsonLines(serialize, items))| == |items|
    ensures forall i :: 0 <= i < |items| ==> SplitLines(JsonLines(serialize, items))[i] == serialize(items[i])
    decreases |items|
  {
    if items != [] {
      var first := serialize(items[0]);
      var rest := JsonLines(serialize, items[1..]);
      assert forall i :: 1 <= i < |items| ==> items[i] == items[1..][i - 1];
      JsonLinesRoundTrip(serialize, items[1..]);
      TakeLineOfJoined(first, rest);
      assert '\n' in first + "\n" + rest by {
        assert (first + "\n" + rest)[|first|] == '\n';
      }
    }
  }

  /** `process_wiki_data`: a missing input file fails before anything else
      happens; a file that does not parse fails too; an entry whose handler
      raises fails the batch. In each of those cases no output is written.
      Otherwise the output holds the expected records, one per line. */
  function ProcessWikiData(v: Variant, input: InputFile, serialize: Processed -> string): (r: Result<string, Fatal>)
    ensures input.Missing? ==> r == Failure(InputNotFound)
    ensures input.Unparsable? ==> r == Failure(ParseError)
    ensures input.Parsed? ==>
      (r.Success? <==> !(v == AsWritten && HasNonObject(input.entries)))
    ensures input.Parsed? && r.Failure? ==> r.error == HandlerRaised
    ensures r.Success? ==> input.Parsed? && r.value == JsonLines(serialize, Expected(input.entries))
  {
    match input
    case Missing => Failure(InputNotFound)
    case Unparsable => Failure(ParseError)
    case Parsed(entries) =>
      match ProcessEntries(v, entries)
      case Failure(e) => Failure(e)
      case Success(records) => Success(JsonLines(serialize, records))
  }

  // -----------------------------------------------------------------------
  // What the records look like
  // -----------------------------------------------------------------------

  /** Every output record comes from an eligible input entry: its
      instruction names the entry's title, its input is empty, and its
      output is the entry's content stripped, so it is non-empty, trimmed,
      and unchanged by stripping again. */
  lemma {:induction false} ExpectedRecordsAreClean(entries: seq<Entry>)
    ensures forall p :: p in Expected(entries) ==>
      && p.input == []
      && p.output != []
      && Text.Trimmed(p.output)
      && Text.Strip(p.output) == p.output
      && exists e :: e in entries && Eligible(e)
           && p.instruction == InstructionPrefix + Rendered(e.fields["title"])
           && p.output == Text.Strip(e.fields["content"].s)
    decreases |entries|
  {
    if entries != [] {
      var e := entries[0];
      var rest := entries[1..];
      ExpectedRecordsAreClean(rest);
      assert forall x :: x in rest ==> x in entries;
      if Eligible(e) {
        Text.StripIdempotent(e.fields["content"].s);
      }
    }
  }

  /** The output is the image of a subsequence of the input: the eligible
      entries, in input order. */
  lemma {:induction false} ExpectedIsImageOfFilter(entries: seq<Entry>)
    ensures var kept := Filter(Eligible, entries);
      && |Expected(entries)| == |kept|
      && forall i :: 0 <= i < |kept| ==> Eligible(kept[i]) && Expected(entries)[i] == Transform(kept[i])
    decreases |entries|
  {
    if entries != [] {
      var e := entries[0];
      var rest := entries[1..];
      ExpectedIsImageOfFilter(rest);
      var kept := Filter(Eligible, entries);
      var keptRest := Filter(Eligible, rest);
      var out := Expected(entries);
      var outRest := Expected(rest);
      if Eligible(e) {
        assert kept == [e] + keptRest;
        assert out == [Transform(e)] + outRest;
        forall i | 0 <= i < |kept|
          ensures Eligible(kept[i]) && out[i] == Transform(kept[i])
        {
          if i > 0 {
            assert kept[i] == keptRest[i - 1];
            assert out[i] == outRest[i - 1];
          }
        }
      } else {
        assert kept == keptRest;
        assert out == outRest;
      }
    }
  }

  /** The records follow the input order, and there are as many as there
      are eligible entries, which is never more than there are entries. */
  lemma OutputFollowsInputOrder(entries: seq<Entry>)
    ensures var kept := Filter(Eligible, entries);
      && IsSubsequence(kept, entries)
      && |Expected(entries)| == |kept|
      && (forall i :: 0 <= i < |kept| ==> Eligible(kept[i]) && Expected(entries)[i] == Transform(kept[i]))
      && |Expected(entries)| == CountIf(Eligible, entries) <= |entries|
  {
    ExpectedIsImageOfFilter(entries);
    FilterLength(Eligible, entries);
    FilterIsSubsequence(Eligible, entries);
  }

  /** An entry whose content is blank, or that lacks a key, adds nothing,
      and the entries around it are processed as if it were absent. */
  lemma IneligibleEntryIsSkipped(before: seq<Entry>, e: Entry, after: seq<Entry>)
    requires !Eligible(e)
    ensures Expected(before + [e] + after) == Expected(before) + Expected(after)
  {
    ExpectedConcat(before + [e], after);
    ExpectedConcat(before, [e]);
    ExpectedSingle(e);
    assert Expected(before) + [] == Expected(before);
  }

  /** Corrected, no entry ever aborts the batch; as written, an object
      entry never does, whatever keys it lacks. */
  lemma ObjectEntriesNeverAbort(v: Variant, entries: seq<Entry>)
    requires v == Corrected || forall i :: 0 <= i < |entries| ==> entries[i].Object?
    ensures ProcessEntries(v, entries) == Success(Expected(entries))
  {
  }

  /** An entry whose content is a trimmed, non-empty text padded with
      whitespace on both sides becomes the record of that text. */
  lemma PaddedContentRecord(e: Entry, pre: string, text: string, post: string)
    requires Text.AllSpace(pre) && Text.AllSpace(post) && Text.Trimmed(text) && text != []
    requires e.Object? && "title" in e.fields && "content" in e.fields
    requires e.fields["content"] == Str(pre + text + post)
    ensures Eligible(e)
    ensures Transform(e) == Processed(InstructionPrefix + Rendered(e.fields["title"]), "", text)
  {
    Text.StripUnique(pre, text, post);
  }

  /** The entry of the worked example is eligible, and the record it
      becomes. */
  lemma HelloRecord(e: Entry)
    requires e == Object(map["title" := Str("T"), "url" := Str("U"), "content" := Str("  hello  ")])
    ensures Eligible(e) && Transform(e) == Processed(InstructionPrefix + "T", "", "hello")
  {
    assert e.fields["content"] == Str("  " + "hello" + "  ");
    assert Text.Trimmed("hello");
    PaddedContentRecord(e, "  ", "hello", "  ");
  }

  /** The worked example: content "  hello  " under title "T" becomes the
      record with instruction "Explain the Arma command: T", empty input
      and output "hello". */
  lemma HelloExample(e: Entry)
    requires e == Object(map["title" := Str("T"), "url" := Str("U"), "content" := Str("  hello  ")])
    ensures Expected([e]) == [Processed(InstructionPrefix + "T", "", "hello")]
  {
    HelloRecord(e);
    ExpectedSingle(e);
  }

  /** Whitespace-only content produces no record. */
  lemma BlankContentDropped(title: Value, content: string)
    requires Text.AllSpace(content)
    ensures Expected([Object(map["title" := title, "content" := Str(content)])]) == []
  {
    ExpectedSingle(Object(map["title" := title, "content" := Str(content)]));
  }

  /** The concrete counterexample: a good entry followed by a bare string
      aborts the batch as written, so no output at all is produced; the
      corrected loop keeps the good entry's record. */
  lemma NonObjectEntryAbortsBatch(good: Entry, entries: seq<Entry>)
    requires Eligible(good) && entries == [good, NonObject]
    ensures ProcessEntries(AsWritten, entries) == Failure(HandlerRaised)
    ensures ProcessEntries(Corrected, entries) == Success([Transform(good)])
  {
    assert entries[1].NonObject?;
    assert entries == [good] + [NonObject];
    ExpectedConcat([good], [NonObject]);
    ExpectedSingle(good);
    ExpectedSingle(NonObject);
    ObjectEntriesNeverAbort(Corrected, entries);
  }
}

=== FILE: text.dfy ===
/** The string operations both scripts rely on: Python's `str.strip()` with
    no argument, and the substring test `needle in haystack`. */
module Text {

  /** Python's `str.isspace` for a single character: the ASCII controls
      TAB..CR and FS..US, the space, and the Unicode space separators and
      line/paragraph separators. */
  predicate IsSpace(c: char) {
    || c == ' '
    || ('\t' <= c <= '\r')
    || ('\U{1C}' <= c <= '\U{1F}')
    || c == '\U{85}'
    || c == '\U{A0}'
    || c == '\U{1680}'
    || ('\U{2000}' <= c <= '\U{200A}')
    || c == '\U{2028}'
    || c == '\U{2029}'
    || c == '\U{202F}'
    || c == '\U{205F}'
    || c == '\U{3000}'
  }

  /** Every character of `s` is whitespace (vacuously true of ""). */
  predicate AllSpace(s: string) {
    forall i :: 0 <= i < |s| ==> IsSpace(s[i])
  }

  /** Neither end of `s` is whitespace: what a stripped string looks like. */
  predicate Trimmed(s: string) {
    s == [] || (!IsSpace(s[0]) && !IsSpace(s[|s| - 1]))
  }

  /** The scan from the left that `strip` performs: the first index at or
      after `i` whose character is not whitespace, or `|s|`. */
  function LeadingEnd(s: string, i: nat): (r: nat)
    requires i <= |s|
    ensures i <= r <= |s|
    ensures forall k :: i <= k < r ==> IsSpace(s[k])
    ensures r < |s| ==> !IsSpace(s[r])
    decreases |s| - i
  {
    if i < |s| && IsSpace(s[i]) then LeadingEnd(s, i + 1) else i
  }

  /** The scan from the right that `strip` performs, never going below
      `lo`: the last index at or before `j` behind which, down to `lo`, the
      character is not whitespace. */
  function TrailingStart(s: string, j: nat, lo: nat): (r: nat)
    requires lo <= j <= |s|
    ensures lo <= r <= j
    ensures forall k :: r <= k < j ==> IsSpace(s[k])
    ensures r > lo ==> !IsSpace(s[r - 1])
    decreases j
  {
    if j > lo && IsSpace(s[j - 1]) then TrailingStart(s, j - 1, lo) else j
  }

  /** `s.strip()`: `s` with whitespace removed from both ends, found by
      scanning from the left and then from the right down to where the left
      scan stopped. The result has no whitespace at either end and is empty
      exactly when `s` was all whitespace; `StripSplits` and `StripUnique`
      pin down which slice it is. */
  function Strip(s: string): (r: string)
    ensures |r| <= |s|
    ensures Trimmed(r)
    ensures r == [] <==> AllSpace(s)
  {
    var lo := LeadingEnd(s, 0);
    var hi := TrailingStart(s, |s|, lo);
    if lo == hi then
      assert forall k :: 0 <= k < |s| ==> IsSpace(s[k]);
      s[lo..hi]
    else
      assert s[lo..hi][0] == s[lo] && s[lo..hi][hi - lo - 1] == s[hi - 1];
      s[lo..hi]
  }

  /** The left scan stops at the first non-whitespace index and nowhere
      else. */
  lemma LeadingEndUnique(s: string, i: nat, p: nat)
    requires i <= p <= |s|
    requires forall k :: i <= k < p ==> IsSpace(s[k])
    requires p < |s| ==> !IsSpace(s[p])
    ensures LeadingEnd(s, i) == p
  {
  }

  /** The right scan stops behind the last non-whitespace index above `lo`
      and nowhere else. */
  lemma TrailingStartUnique(s: string, j: nat, lo: nat, p: nat)
    requires lo <= p <= j <= |s|
    requires forall k :: p <= k < j ==> IsSpace(s[k])
    requires p > lo ==> !IsSpace(s[p - 1])
    ensures TrailingStart(s, j, lo) == p
  {
  }

  /** A sequence is its three slices at two cut points, joined. */
  lemma ThreeSlices<T>(s: seq<T>, lo: nat, hi: nat)
    requires lo <= hi <= |s|
    ensures s == s[..lo] + s[lo..hi] + s[hi..]
  {
    assert s[..hi] == s[..lo] + s[lo..hi];
    assert s == s[..hi] + s[hi..];
  }

  /** `Strip(s)` is a slice of `s` and everything cut away around it is
      whitespace. */
  lemma StripSplits(s: string) returns (a: string, b: string)
    ensures AllSpace(a) && AllSpace(b)
    ensures s == a + Strip(s) + b
  {
    var lo := LeadingEnd(s, 0);
    var hi := TrailingStart(s, |s|, lo);
    ThreeSlices(s, lo, hi);
    a := s[..lo];
    b := s[hi..];
    assert AllSpace(a) by {
      forall k | 0 <= k < |a| ensures IsSpace(a[k]) {
        assert a[k] == s[k];
      }
    }
    assert AllSpace(b) by {
      forall k | 0 <= k < |b| ensures IsSpace(b[k]) {
        assert b[k] == s[hi + k];
      }
    }
  }

  /** Where the characters of `a + m + b` come from. */
  lemma ConcatIndex(a: string, m: string, b: string, k: nat)
    requires k < |a| + |m| + |b|
    ensures (a + m + b)[k] == if k < |a| then a[k] else if k < |a| + |m| then m[k - |a|] else b[k - |a| - |m|]
  {
  }

  /** Characterisation of `strip`: whatever whitespace surrounds a trimmed
      string, stripping recovers exactly that string. */
  lemma StripUnique(a: string, m: string, b: string)
    requires AllSpace(a) && AllSpace(b) && Trimmed(m)
    ensures Strip(a + m + b) == m
  {
    var s := a + m + b;
    if m == [] {
      assert AllSpace(s) by {
        forall k | 0 <= k < |s| ensures IsSpace(s[k]) {
          ConcatIndex(a, m, b, k);
        }
      }
    } else {
      var lo := |a|;
      var hi := |a| + |m|;
      forall k | 0 <= k < lo ensures IsSpace(s[k]) {
        ConcatIndex(a, m, b, k);
      }
      ConcatIndex(a, m, b, lo);
      LeadingEndUnique(s, 0, lo);
      forall k | hi <= k < |s| ensures IsSpace(s[k]) {
        ConcatIndex(a, m, b, k);
      }
      ConcatIndex(a, m, b, hi - 1);
      TrailingStartUnique(s, |s|, lo, hi);
      assert s[lo..hi] == m;
    }
  }

  /** Stripping twice is the same as stripping once. */
  lemma StripIdempotent(s: string)
    ensures Strip(Strip(s)) == Strip(s)
  {
    var m := Strip(s);
    assert [] + m + [] == m;
    StripUnique([], m, []);
  }

  /** `needle` occurs in `hay` starting at the front. */
  predicate StartsWith(hay: string, needle: string) {
    |needle| <= |hay| && hay[..|needle|] == needle
  }

  /** `needle` occurs in `hay` starting at index `i`. */
  predicate OccursAt(hay: string, needle: string, i: int) {
    0 <= i && i + |needle| <= |hay| && hay[i..i + |needle|] == needle
  }

  /** Python's `needle in hay` for strings: some slice of `hay` equals
      `needle` (the empty needle occurs in every string). */
  function Contains(hay: string, needle: string): (r: bool)
    ensures r <==> exists i :: OccursAt(hay, needle, i)
    decreases |hay|
  {
    if StartsWith(hay, needle) then
      assert OccursAt(hay, needle, 0);
      true
    else if hay == [] then
      false
    else
      var r := Contains(hay[1..], needle);
      assert forall i :: OccursAt(hay, needle, i) ==> i >= 1 && OccursAt(hay[1..], needle, i - 1);
      assert forall i :: OccursAt(hay[1..], needle, i) ==> OccursAt(hay, needle, i + 1);
      r
  }

  /** A needle whose first character never appears in `hay` does not occur
      in it. */
  lemma AbsentFirstChar(hay: string, needle: string)
    requires needle != [] && needle[0] !in hay
    ensures !Contains(hay, needle)
  {
  }
}

=== FILE: variants.dfy ===
/** Where the scripts as written depart from what they evidently intend, the
    model keeps both behaviours and selects one with a `Variant`. */
module Variants {

  /** `AsWritten` follows the scripts line by line; `Corrected` repairs the
      defects listed under "Findings" in the README. */
  datatype Variant = AsWritten | Corrected
}

=== FILE: wrappers.dfy ===
/** Optional values and batch outcomes shared by the scraper and the sorter models. */
module Wrappers {

  /** A value that may be absent: a missing HTML element, a missing JSON key,
      or a lookup that raised. */
  datatype Option<+T> = None | Some(value: T) {

    /** The wrapped value, or `default` when there is none. */
    function GetOr(default: T): T {
      match this
      case Some(v) => v
      case None => default
    }
  }

  /** The outcome of a batch step: a value, or the fatal error that aborted it. */
  datatype Result<+R, +E> = Success(value: R) | Failure(error: E)
}
